=== FILE: README.md ===
# Attendance by face recognition — a Dafny model of its decision logic

The system takes school attendance from a webcam. Each frame is searched in a
face collection held by the Face++ service. When the best match is confident
enough, the matched student's attendance for the day is toggled. A second scan
on the same day removes the first scan's row. Students are enrolled from a
folder of photos. An administrator can set each student's guardian e-mail
address. A batch job mails the guardians of the students who were absent on a
given day.

The model replaces all I/O with values:
- the PostgreSQL tables `alunos` and `presencas` are sequences of rows with the
  constraints their DDL declares (`Store.Valid`);
- each connection attempt is an oracle `DbEnv`: no connection, a statement that
  raises (its transaction rolls back), or a working connection;
- each HTTP exchange with the face service is an `Http.Exchange`: a transport
  failure, or a status with an optional JSON body and its text;
- the SMTP exchange of the i-th notice is `mailer.smtp(i)`;
- the token map file and the template file are optional values.

Python semantics that the decisions depend on are written out in `PyJson`:
- truthiness;
- `in` on dicts, strings and lists, and the TypeError it raises on other values;
- `.get`, `x or default`, and `(d.get(k) or {}).get(...)`, which raises when
  the value is a truthy non-dict.

An exception that escapes a route is a `Raised`/`InternalError` outcome. Flask
answers it with a 500.

Modules, one per file:
- `Wrappers`: `Option`.
- `Text`: Python's `strip`, substring search, decimal rendering of integers,
  and code-point order.
- `Calendar`: dates and `dd/mm/yyyy`.
- `PyJson`: JSON values and the Python operations on them.
- `Store`: the schema.
- `Identity`: the token-to-name map.
- `Attendance`: `registrar_presenca`.
- `Http`: `request_json_safe`.
- `FaceSet`: `ensure_faceset_exists`.
- `Scan`: `chamada_webcam`.
- `Enrollment`: `cadastrar_alunos`.
- `Guardian`: `atualizar_email_responsavel`.
- `Absentees`: `get_absent_students`.
- `Notifier`: `send_absence_email` and `main`.

Two behaviours of `main` in email_ausentes.py worth noting:
- Missing mail credentials do not stop the batch up front. Each call with a
  valid address raises, `main` catches the error per recipient and goes on.
- An empty address, or one without '@', makes `send_absence_email` return
  without sending. `main` counts it as sent.

## Model

| member | source | states |
|---|---|---|
| Store.PairwiseOnePerDay | app.py:87-96 | a table that keeps its primary key and `UNIQUE(aluno_id, data_presenca)` pairwise has at most one row per student and day |
| Store.Namesakes | app.py:120-123 | every student selected by `WHERE nome = %s` is a student of the table with that name |
| Store.NamesakesComplete | app.py:120-123 | every student of the table with that name is selected |
| Attendance.FindToday | app.py:110-115 | the row `fetchone` returns is dated today and belongs to a student with the name (the first such row in table order, an order the model fixes); None exactly when no such row exists |
| Attendance.PairwiseKeyUnique | app.py:87 | in a table that keeps its primary key no other row shares a row's id |
| Attendance.RemoveByIdMembers | app.py:117 | a row remains after the delete exactly when it was there and its id differs |
| Attendance.NewRows | app.py:120-123 | one present row per selected student, dated today, with the given confidence and consecutive SERIAL ids |
| Attendance.Toggle | app.py:104-129 | students are never changed; any outcome other than "apagada" or True leaves the store as it was; None exactly when there is no connection |
| Attendance.ToggleFaultyFails | app.py:125-127 | an exception inside the transaction leaves the store as it was and the result is False |
| Attendance.RemoveUniqueId | app.py:117 | deleting by a primary key removes exactly the one row holding it |
| Attendance.RemoveAbsentId | app.py:117 | deleting an id no row holds changes nothing |
| Attendance.DropKeepsPairwise | app.py:93-95 | removing a row keeps the table's key and uniqueness constraints |
| Attendance.ToggleRemovesTodayRow | app.py:110-118 | with a row today for the name, one such row (the one the lookup returns) is deleted, nothing is inserted, the rest keep their order, and the result is "apagada" |
| Attendance.NamesakesDistinct | app.py:76-77 | students sharing a name still have distinct ids |
| Attendance.NewRowsFreshIds | app.py:87-89 | the inserted rows' ids are above every id in the table |
| Attendance.NoNamesakeRowToday | app.py:110-116 | when the lookup finds nothing, no student with the name has a row today |
| Attendance.NewRowsPairwise | app.py:120-123 | the inserted rows do not clash with one another |
| Attendance.InsertCompatible | app.py:93-95 | after a failed lookup the insert cannot violate `UNIQUE(aluno_id, data_presenca)` |
| Attendance.ToggleInsertsForNamesakes | app.py:119-124 | without a row today, one present row with the confidence is appended per namesake (ids assigned in table order, an order the model fixes); the result is True even when no student has the name and nothing is written |
| Attendance.ToggleRejectsOversizedConfidence | app.py:94 | a confidence that DECIMAL(5,2) cannot hold makes the insert fail (False) and leaves the store unchanged whenever some student carries the name |
| Attendance.AppendOutcome | app.py:119-124 | when the lookup misses and the insert keeps the constraints, the new rows are appended after the old ones and the result is True |
| Attendance.TogglePreservesValid | app.py:104-129 | every schema constraint holds after the toggle, whatever the connection does |
| Attendance.RemoveKeepsValid | app.py:117 | deleting a row by its key keeps every schema constraint |
| Attendance.InsertKeepsValid | app.py:119-123 | appending the namesakes' present rows, when the constraints accept them, keeps every schema constraint |
| Attendance.ToggleNeverWritesAbsent | app.py:117-123 | every row after the call was there before or has `presente = TRUE` |
| Attendance.FindAppended | app.py:110-115 | the lookup finds a matching row appended after non-matching ones |
| Attendance.ToggleTwiceRestores | app.py:110-124 | with exactly one student of the name, two scans on the same day give True then "apagada" and leave the attendance table as before the first |
| Attendance.FirstScanAppends | app.py:119-124 | the first scan of a single student with no row today appends exactly one row, which is today's row for the name |
| Attendance.SecondScanRemoves | app.py:110-118 | the next scan finds that appended row, the only one with its key, and deletes it, restoring the earlier table |
| Identity.Load | app.py:52-58 | the held map is replaced by the file's map, or by the empty map when there is no file |
| Identity.Persist | app.py:47-49 | the whole map is written |
| Identity.Resolve | app.py:400 | a known token gives its name, an unknown one "Desconhecido" |
| Identity.Register | app.py:317 | the token now resolves to the new name, overwriting any old one; every other token resolves as before |
| Identity.LoadAfterPersist | app.py:47-58 | loading the saved map gives it back, whatever map was held before |
| PyJson.In | app.py:165 | `in` tests dict keys and substrings, and raises on None, booleans and numbers |
| PyJson.Get | app.py:396 | `.get` yields the value exactly when the key is present |
| PyJson.OrElse | app.py:357 | `v or default` keeps a truthy value and otherwise gives the default |
| PyJson.NestedGet | app.py:167 | `(d.get(k) or {}).get(x)` raises exactly when the field is a truthy non-dict, reads the inner key of a dict, and is None for a missing or falsy field |
| PyJson.First | app.py:397 | `[0]` on a truthy list is its first element; on a dict, None, a bool or a number it raises |
| PyJson.AsNumber | app.py:398 | comparing with 80 uses a number's value, a bool as 0 or 1, and raises otherwise |
| Http.Body | app.py:137-140 | the decoded JSON body, or a dict with the single key "raw" when the body is not JSON |
| Http.RequestJsonSafe | app.py:132-150 | status 200 gives the body unchanged; another status gives keys error/endpoint/details with error "HTTP <code>"; a transport failure gives error "Falha de requisição" with "detalhes" and no "details" |
| Http.ErrorCarriesStatus | app.py:142-150 | the status of a failed response reads back from the error text, and a transport failure never reads as a status |
| Http.Http400Prefix | app.py:168 | for a three-digit status, "HTTP <code>" starts with "HTTP 400" exactly when the status is 400 |
| FaceSet.Reason | app.py:167 | the reason raises exactly when "details" is a truthy non-dict; it is the details' "error_message" when there is one, and "" otherwise |
| FaceSet.ShouldCreate | app.py:167-168 | the condition holds only when the reason contains FACESET_NOT_FOUND or FACESET_EXIST, or the error text starts with "HTTP 400"; it fails only when neither marker occurs and the error text is a string not starting with "HTTP 400" |
| FaceSet.ShouldCreateOnText | app.py:168 | for a string reason and error text the condition is the plain disjunction: either marker in the reason, or the "HTTP 400" prefix |
| FaceSet.CreateOnlyOnMarkers | app.py:165-170 | a create call implies the getdetail answer is an error dict whose reason holds one of the two markers, or whose error text starts with "HTTP 400" |
| FaceSet.ExistCreates | app.py:167-168 | an error whose details' error_message contains FACESET_EXIST issues a create, whatever the status |
| FaceSet.UnmarkedErrorNeverCreates | app.py:165-184 | a three-digit error status other than 400 (a 5xx, a 404, ...) whose details name neither marker issues only getdetail and returns |
| FaceSet.EnsureExists | app.py:153-184 | getdetail is always issued first, followed by at most a create; a logged create error implies the create call |
| FaceSet.CreatesIff | app.py:162-168 | create is issued exactly when the getdetail answer is a dict with "error" and the create condition evaluates to true |
| FaceSet.AtMostOneCreate | app.py:165-184 | the calls start with getdetail and none repeats, so there is at most one create |
| FaceSet.TransportFailureNeverCreates | app.py:149-168 | a transport failure of getdetail issues no create |
| FaceSet.ExistingNeverCreated | app.py:162-165 | a 200 answer without "error" issues no create |
| FaceSet.BadRequestCreates | app.py:167-168 | a 400 answer issues a create unless its details are malformed |
| FaceSet.NotFoundCreates | app.py:167-168 | an error whose details' error_message contains FACESET_NOT_FOUND issues a create, whatever the status |
| FaceSet.CreateErrorOnlyLogged | app.py:181-184 | a dict answer to create never raises; it is logged exactly when it carries "error" |
| Scan.DecideCandidate | app.py:397-400 | acting on a candidate implies its confidence is above 80 |
| Scan.ResolveToken | app.py:399-400 | `alunos_tokens.get(token, "Desconhecido")` raises exactly on an unhashable list or dict token; a known string token gives its name, and anything else "Desconhecido" |
| Scan.Decide | app.py:393-413 | acting on a search answer implies the confidence is above 80 |
| Scan.ReplyFor | app.py:402-408 | "apagada" becomes the removal reply, True the presence reply, False and None a 500 |
| Scan.Intake | app.py:368-376 | a refused request is answered as "no image", a bad image format, or an internal error (a TypeError in the `in` test); an accepted image holds the ',' that `split(',')[1]` needs |
| Scan.DataUrlAccepted | app.py:368-376 | a body `{"image_data": s}` whose text has a ',' is accepted |
| Scan.Respond | app.py:393-413 | students are never changed; the store changes only on a removal or presence reply |
| Scan.FrameReachesSearch | app.py:364-413 | for an accepted data URL whose provisioning does not crash, the route's answer is the answer to the search reply |
| Scan.ErrorAnswerReported | app.py:393-394 | a search answer carrying "error" is reported as the service's error with its "details" |
| Scan.ScanFrame | app.py:364-413 | students are never changed; the store changes only on a removal or presence reply |
| Scan.OnlyFirstCandidate | app.py:396-397 | the decision depends on `results[0]` alone |
| Scan.MissingConfidenceIsLow | app.py:398 | a candidate without a confidence counts as 0 and is not acted on |
| Scan.ActsIffAboveThreshold | app.py:398-400 | a numeric confidence is acted on exactly when it is strictly above 80, under the map's name for the token or "Desconhecido" |
| Scan.ThresholdBoundary | app.py:398 | 80 is not acted on, 80.1 is |
| Scan.ApagadaCheckedFirst | app.py:403-406 | "apagada" is truthy, and it is still never reported as a new presence |
| Scan.ActTogglesStore | app.py:398-408 | a decision to act runs the toggle under the decided name and confidence, and the reply follows its result: "apagada" the removal reply, True the presence reply, False and None a 500 |
| Scan.ConfidentMatchActs | app.py:396-401 | a search answer whose first candidate scores above 80 is acted on under the map's name for its token, or "Desconhecido", whatever the other candidates |
| Scan.ConfidentFrameToggles | app.py:364-408 | a frame that passes the input checks and provisioning, with a search answer the gate acts on, yields exactly the toggle's store and the reply for its result |
| Scan.ScanTogglesOnlyAboveThreshold | app.py:396-408 | a store change or a store reply happens only when the gate acted above 80; the reply then follows the toggle's result |
| Scan.SearchErrorIs400 | app.py:393-394 | a failed search (non-200 or transport failure) is a 400 and leaves the store alone |
| Scan.FaultyStoreIs500 | app.py:402-408 | when the toggle's transaction raises, a confident match is answered with a 500 and the store is unchanged |
| Enrollment.VisibleEntries | app.py:293 | the kept entries are exactly those whose name does not start with '.' |
| Enrollment.LastDot | app.py:303 | the position of the last '.', or None when the name has none |
| Enrollment.StudentName | app.py:303 | the name is the whole file name, or the part before the last '.' when something other than '.' precedes that dot; with no '.' it is the whole file name |
| Enrollment.DropsLastExtension | app.py:303 | `base.ext`, with a base not made only of dots and an extension without '.', gives `base` |
| Enrollment.HiddenNameKept | app.py:303 | a name of leading dots followed by one extension, such as ".jpg", is kept whole |
| Enrollment.InsertStudent | app.py:329-332 | a successful insert appends one row with the next id and no guardian address, and leaves attendance alone |
| Enrollment.InsertStudentSucceedsIff | app.py:329-332 | the insert is accepted exactly when the name and token fit their columns and no row holds the token |
| Enrollment.SaveFaceEnrollsNew | app.py:319-350 | on a working connection a face whose name and token no row has, and which fits the columns, is enrolled: one row with the next id is appended and "cadastrado" is logged first |
| Enrollment.SaveFaceKeepsExisting | app.py:323-327 | on a working connection a face whose name or token a row has adds nothing and logs "já está cadastrado" |
| Enrollment.StepEnrollsNew | app.py:315-333 | a photo whose detected face is new is enrolled under the file's name and its token is mapped to that name |
| Enrollment.DetectedToken | app.py:315-316 | a non-dict answer raises; no face exactly when "faces" is missing or falsy; a token is the string `face_token` of the first entry of the "faces" list |
| Enrollment.DetectFailure | app.py:357 | a truthy "error" is the reason; the lookup raises exactly when there is no truthy "error" and "details" is a truthy non-dict; the reason is never falsy, falling back to "Nenhum rosto detectado" |
| Enrollment.SaveFace | app.py:319-355 | attendance is never changed; without a working connection the table is unchanged; nothing is logged exactly when no connection is made; a transaction that raises logs only the save error |
| Enrollment.Run | app.py:302-358 | the loop only appends to the log, and after a crash nothing more happens |
| Enrollment.Step | app.py:302-358 | one photo only appends to the log |
| Enrollment.UnreadablePhotoCrashes | app.py:306 | a photo `open` cannot read raises out of the loop before any request, logging nothing |
| Enrollment.RunCrashesOnUnreadable | app.py:302-306 | one unreadable photo anywhere in the list stops the loop with an exception |
| Enrollment.UnreadablePhotoLosesMap | app.py:302-361 | an unreadable visible photo makes the route a 500 and the token map is never written |
| Enrollment.Enroll | app.py:285-361 | attendance is never changed; a missing folder changes nothing and writes no map |
| Enrollment.RunKeepsPresences | app.py:302-358 | the loop never changes attendance |
| Enrollment.StepKeepsPresences | app.py:302-358 | one photo never changes attendance |
| Enrollment.SaveFaceKeepsPresences | app.py:319-355 | saving one face never changes attendance |
| Enrollment.DotfilesIgnored | app.py:293 | the route behaves as if dotfiles were not in the folder |
| Enrollment.VisibleIdempotent | app.py:293 | filtering dotfiles twice equals filtering once |
| Enrollment.SaveFaceInsertsOnlyNew | app.py:323-333 | the student table is unchanged, or gains one row appended with the next id whose name and token no row had |
| Enrollment.FreshAppendTransitive | app.py:323-333 | appending fresh rows twice is appending fresh rows |
| Enrollment.RunAppendsFresh | app.py:302-333 | over a run the student table only grows, and each added row matches no earlier row by name or token |
| Enrollment.SaveFacePreservesValid | app.py:319-333 | saving one face keeps every schema constraint |
| Enrollment.InsertStudentKeepsValid | app.py:329-332 | an accepted insert (fresh id, new token, fitting widths) keeps every schema constraint |
| Enrollment.RunPreservesValid | app.py:302-358 | a whole run keeps every schema constraint |
| Enrollment.UndetectedTokenKept | app.py:315-317 | a token no photo detected keeps its earlier entry in the map, or stays absent |
| Enrollment.LastDetectionWins | app.py:315-317 | after a run that does not crash, a token maps to the name of the last photo that detected it |
| Enrollment.StepKeepsToken | app.py:315-317 | a photo that did not detect the token leaves its entry in the map alone |
| Enrollment.StepRegistersToken | app.py:315-317 | a photo that detected the token maps it to the file's name unless the loop stops there |
| Guardian.SetEmail | app.py:259-260 | the row with the id gets the address; every other row is unchanged |
| Guardian.UpdateGuardianEmail | app.py:247-266 | success exactly when the stripped input is non-empty and holds '@' and the database works; otherwise nothing changes; attendance is never touched |
| Guardian.UpdateTouchesOneRow | app.py:257-261 | an accepted update stores the stripped address on the rows with that id only; an unknown id reports success and changes nothing |
| Guardian.StoredAddressIsClean | app.py:249-250 | the stored address has no surrounding whitespace and holds '@'; stripping it again changes nothing |
| Guardian.UpdatePreservesValid | app.py:257-260 | the update keeps every schema constraint |
| Guardian.SetEmailKeepsValid | app.py:259-260 | changing one address keeps ids, names and tokens, so every schema constraint still holds |
| Guardian.SetEmailAbsentId | app.py:259-260 | an `UPDATE` whose id no row holds leaves the table as it was |
| Text.Strip | app.py:249 | the result is the input with whitespace-only borders removed: it has no whitespace at either end |
| Text.StripIdempotent | app.py:249 | stripping twice equals stripping once |
| Text.ContainsIff | app.py:168 | the substring search succeeds exactly when the needle occurs at some position |
| Text.NatToString | app.py:144 | the rendering of a status is a non-empty digit string without a leading zero |
| Text.NatToStringRoundTrip | app.py:144 | the digits read back as the number |
| Text.NatToStringInjective | app.py:144 | different statuses give different texts |
| Text.ThreeDigits | app.py:144 | a three-digit status renders as three characters |
| Text.LexLeTotal | email_ausentes.py:65 | any two names are ordered one way or the other |
| Text.LexLeTransitive | email_ausentes.py:65 | the name order is transitive |
| Calendar.FormatDate | email_ausentes.py:80 | `%d/%m/%Y` gives ten characters with '/' at positions 2 and 5 |
| Calendar.FormatDateRoundTrip | email_ausentes.py:80 | the formatted date parses back to the same date |
| Calendar.FormatDateInjective | email_ausentes.py:80 | different dates format differently |
| Absentees.DayRows | email_ausentes.py:59-61 | the joined rows are exactly the student's rows for the date |
| Absentees.AbsentMatches | email_ausentes.py:56-62 | every output row is the student's row, no more than the joined rows, and none exactly when every joined row is present |
| Absentees.StudentRows | email_ausentes.py:56-64 | every row is the student's own row and only an eligible student has any; there are none exactly when the student is ineligible or has rows for the date that are all present |
| Absentees.Joined | email_ausentes.py:56-64 | every joined row is the row of an eligible student of the table |
| Absentees.AbsentStudents | email_ausentes.py:35-70 | the result is ordered by name and every row belongs to an eligible student of the table |
| Absentees.InsertByName | email_ausentes.py:65 | inserting keeps the rows ordered by name and adds exactly the one row |
| Absentees.SortByName | email_ausentes.py:65 | the output is ordered by name and is a permutation of the input |
| Absentees.NoDayRows | email_ausentes.py:59-61 | a student with no row for the date joins nothing |
| Absentees.AtMostOneDayRow | email_ausentes.py:59-61 | under `UNIQUE(aluno_id, data_presenca)` a student joins at most one row |
| Absentees.StudentRowsExact | email_ausentes.py:56-64 | the LEFT JOIN yields the student's row once when the student is eligible and absent, and nothing otherwise |
| Absentees.JoinedIsExpected | email_ausentes.py:56-64 | the unordered query equals the direct definition of the absent set |
| Absentees.ExpectedMembers | email_ausentes.py:38-64 | a row is in the absent set exactly when it belongs to an eligible absent student |
| Absentees.AbsentStudentsCharacterized | email_ausentes.py:35-70 | the result is ordered by name, one row per eligible absent student, and holds exactly the students with no row or a `presente = FALSE` row for the date, a non-empty address and, if filtered, the shift |
| Absentees.PresentStudentExcluded | email_ausentes.py:62 | a student with a present row for the date is never selected |
| Notifier.SubstituteDefinedIff | email_ausentes.py:83 | substitution succeeds exactly when every placeholder has a value |
| Notifier.DefaultBody | email_ausentes.py:29-33 | the default template renders to the fixed text with the name and the date |
| Notifier.Substitute | email_ausentes.py:83 | a result exists exactly when every placeholder has a value (otherwise the KeyError) |
| Notifier.SubstitutePiece | email_ausentes.py:83 | a literal renders as itself, a placeholder as its value, and an unbound placeholder fails |
| Notifier.SubstituteAppend | email_ausentes.py:83 | rendering distributes over concatenation: the text of `a + b` is the text of `a` followed by that of `b`, and it fails when either part fails |
| Notifier.Send | email_ausentes.py:72-93 | returns without sending exactly when the address is empty or has no '@'; otherwise missing credentials raise; after a successful substitution, a From, To or Subject value that spans lines raises exactly then; a send goes from the user to the address with the subject "Aviso de ausência - name (turno)" and the rendered body, all three headers on one line |
| Notifier.DefaultNotice | email_ausentes.py:79-88 | with no template file and one-line header values, a valid address receives the default body with the date as dd/mm/yyyy, which parses back to the run date |
| Notifier.InjectedHeaderRefused | email_ausentes.py:85-88 | the address "pai@x.com\nBcc: y@z.com" makes the `To` assignment raise, so nothing is sent |
| Notifier.HeaderBreakNotCounted | email_ausentes.py:86-114 | a row whose header values span lines is logged as an error and not counted |
| Text.SingleLineIff | email_ausentes.py:86-88 | `len(v.splitlines()) <= 1`, the test `EmailMessage` applies to a header value, holds exactly when every line break is part of the final terminator |
| Text.BreakInside | email_ausentes.py:86-88 | a line break followed by two or more characters makes the value span lines |
| Notifier.CallFor | email_ausentes.py:109 | the i-th call skips exactly when the row's address is invalid, and a delivery goes to that address through the i-th SMTP exchange |
| Notifier.EventsFor | email_ausentes.py:104-114 | a dry run logs only its line; otherwise two lines exactly when the call did not raise, the second being what follows the count |
| Notifier.Notify | email_ausentes.py:95-115 | a query failure escapes; otherwise the count is the number of calls that did not raise, the log is each row's lines in order, and an empty set gives 0 with no log |
| Notifier.NotifyAll | email_ausentes.py:102-115 | over the absent rows, the count is the number of calls made that did not raise and the log is each row's lines in order; no rows give 0 and no log |
| Notifier.NotifyRow | email_ausentes.py:104-114 | one row logs its dry-run line, or its call's line followed by a second line (the pause, or the error `time.sleep` raises for a negative delay or one beyond 2^63-1 ns) exactly when the call did not raise, and is counted exactly then |
| Notifier.AfterCount | email_ausentes.py:110-114 | after a counted call the log shows a pause of the delay exactly when the delay is neither negative nor beyond 2^63-1 nanoseconds, and otherwise the error for that student |
| Notifier.SleepRange | email_ausentes.py:112 | delays from 0 to 9223372036 seconds pause; negative ones and ones of 9223372037 seconds or more fail |
| Notifier.OverlongDelayStillCounted | email_ausentes.py:108-114 | with a delay past the nanosecond range a call that did not raise is still counted, and its line is followed by an error instead of a pause |
| Notifier.NegativeDelayStillCounted | email_ausentes.py:108-114 | with a negative delay a call that did not raise is still counted, and its "[OK]" line is followed by an error instead of a pause |
| Notifier.CountedBelowStep | email_ausentes.py:110-111 | one more row adds one to the count exactly when its call is made and does not raise |
| Notifier.DryRunSendsNothing | email_ausentes.py:105-107 | a dry run counts nothing and logs one "would send" line per row |
| Notifier.PauseOnlyAfterSuccess | email_ausentes.py:108-114 | every pause comes right after a send or a skipped invalid address, never after a failure and never first |
| Notifier.RowPausesFollowSuccess | email_ausentes.py:108-114 | a row's own lines never start with a pause and pause only after a success |
| Notifier.MissingCredentialsCountsInvalidOnly | email_ausentes.py:73-77 | without credentials only rows with an invalid address are counted and nothing is sent |
| Notifier.InvalidAddressCounted | email_ausentes.py:73-75 | an invalid address sends nothing and is counted |
| Notifier.ThreeWithMiddleFailure | email_ausentes.py:103-115 | with three recipients whose header values fit on one line, where the middle send fails, the batch continues and counts two |
| Notifier.ThreeCalls | email_ausentes.py:79-93 | with credentials, no template file and one-line header values, the three calls deliver, raise on the server's refusal, and deliver |
| Notifier.ThreeCount | email_ausentes.py:110-111 | counted, not counted, counted gives a count of two |
| Notifier.ThreeTrace | email_ausentes.py:108-115 | a delivery, a refusal and a delivery log five lines with the failure third |

## Left out

- Flask routing, JSON response bodies beyond their kind and status, `flash`,
  redirects, templates and CORS: only the decisions behind the routes are
  modelled.
- The admin panel and presence list views (app.py:193-244, app.py:416-444):
  formatting of stored rows only.
- Connections to PostgreSQL, requests to Face++, SMTP_SSL, file reads and
  writes: replaced by the `DbEnv`, `Exchange`, `smtp` and optional-file
  inputs, and by each photo's `readable` flag (whether `open` succeeds).
- Base64 decoding of the frame: the `decodes` input says whether it raises.
- Parsing of a template file by `string.Template`: the file is given already
  split into literal text and `${key}` placeholders. `$$` escapes and
  malformed placeholders (a ValueError) are not modelled.
- Store.FitsConfidence: the DECIMAL(5,2) column's rounding is not
  modelled. The value is stored as given, and only its range is checked.
- Text.LexLe: PostgreSQL's collation for `ORDER BY a.nome` is replaced by
  code-point order.
- Absentees.SortByName: the order among rows with equal names is left open,
  as the query leaves it.
- Concurrent scans and the insert race between the lookup and the insert.
  The uniqueness constraint is a store invariant; a violating insert fails
  as a whole.
- SERIAL values consumed by an insert that rolls back: failed inserts do not
  advance the counters in the model.
- Timestamps (`data_cadastro`, `horario_presenca`) and the clock: the day is
  the `today`/`date` input.
- The scheduler and dotenv configuration (app.py:448-458): timers and
  environment. The mail credentials are inputs (`Notifier.CredentialsFromEnv`).
- `time.sleep`: a `Pause` event in the log, or a `SleepFailed` event when the
  delay is negative or beyond 2^63-1 nanoseconds; no time passes in the model.
- Notifier.AfterCount: `EMAIL_DELAY_SECONDS` is a `real`, not a double.
  `float()` also accepts "inf" and "nan", which make `time.sleep` raise
  (OverflowError, ValueError) and would take the same counted-then-error path;
  a real cannot hold them. Double rounding of `delay * 1e9` at the edge of the
  range is not modelled.
- Notifier.Send: only the multi-line test of the header policy is modelled.
  Other defects the address parser of `EmailMessage` may report are not.
- Attendance.FindToday: the lookup at app.py:110-115 and the `INSERT ...
  SELECT` at app.py:120-123 have no ORDER BY. The model fixes table order
  where the SQL leaves it open: with two namesakes holding a row today, the
  first in table order is the one deleted, and `Attendance.NewRows` assigns
  the SERIAL ids in table order.
- Enrollment.DetectedToken: a `face_token` that is not a string is treated as
  a crash, whereas Python would store a non-string key in the map.
- Calendar.FormatDate: years are limited to 1..9999 and written with four
  digits.
- `turno` is read by the absence query but no shown DDL creates it. The model
  assumes a nullable text column and renders NULL as "None" in the subject.
- ia.py (an interactive webcam loop with a floating-point distance
  threshold), setup_db.py (DDL that duplicates app.py:75-97; its `"_main_"`
  entry guard never fires) and teste.py (a single hard-coded send) are not
  part of this model.

=== FILE: absentees.dfy ===
/** `get_absent_students`: the students to notify for a date, as the
    LEFT JOIN query selects them, ordered by name. */
module Absentees {
  import opened Wrappers
  import opened Text
  import opened Calendar
  import opened Store

  /** A selected row `(a.nome, a.email_responsavel, a.turno)`. */
  datatype AbsentRow = AbsentRow(name: string, email: string, turno: Option<string>)

  /** Python's `if turno_filter:` — an empty filter string means no filter. */
  predicate FilterApplies(filter: Option<string>)
  {
    filter.Some? && filter.value != ""
  }

  /** The student-side conditions of the WHERE clause: a non-null, non-empty
      guardian address and, under a filter, `a.turno = %s` (false for a NULL turno). */
  predicate Eligible(s: Student, filter: Option<string>)
  {
    s.email.Some? && s.email.value != "" && (!FilterApplies(filter) || s.turno == Some(filter.value))
  }

  function RowOf(s: Student): AbsentRow
    requires s.email.Some?
  {
    AbsentRow(s.name, s.email.value, s.turno)
  }

  /** The rows of `presencas` the join pairs with student `id` on `date`. */
  function DayRows(ps: seq<Presence>, id: nat, date: Date): (r: seq<Presence>)
    ensures forall p :: p in r <==> p in ps && p.studentId == id && p.date == date
  {
    if |ps| == 0 then []
    else if ps[0].studentId == id && ps[0].date == date then [ps[0]] + DayRows(ps[1..], id, date)
    else DayRows(ps[1..], id, date)
  }

  /** One output row per joined presence with `presente = FALSE`. */
  function AbsentMatches(s: Student, m: seq<Presence>): (r: seq<AbsentRow>)
    requires s.email.Some?
    ensures |r| <= |m|
    ensures forall k :: 0 <= k < |r| ==> r[k] == RowOf(s)
    ensures r == [] <==> forall k :: 0 <= k < |m| ==> m[k].present
  {
    if |m| == 0 then []
    else (if m[0].present then [] else [RowOf(s)]) + AbsentMatches(s, m[1..])
  }

  /** The query's output rows for one student: the LEFT JOIN yields one row
      with NULLs when nothing matches, one row per match otherwise, and the
      WHERE clause keeps `p.id IS NULL OR p.presente = FALSE`. */
  function StudentRows(s: Student, ps: seq<Presence>, date: Date, filter: Option<string>): (r: seq<AbsentRow>)
    ensures r != [] ==> Eligible(s, filter)
    ensures forall k :: 0 <= k < |r| ==> s.email.Some? && r[k] == RowOf(s)
    ensures r == [] <==>
      || !Eligible(s, filter)
      || (&& (exists p :: p in ps && p.studentId == s.id && p.date == date)
          && (forall p :: p in ps && p.studentId == s.id && p.date == date ==> p.present))
  {
    if !Eligible(s, filter) then []
    else
      var m := DayRows(ps, s.id, date);
      if m == [] then [RowOf(s)] else AbsentMatches(s, m)
  }

  /** The query's rows before `ORDER BY`, in student table order. */
  function Joined(students: seq<Student>, ps: seq<Presence>, date: Date, filter: Option<string>): (r: seq<AbsentRow>)
    ensures forall x :: x in r ==> exists j :: 0 <= j < |students| && Eligible(students[j], filter) && x == RowOf(students[j])
  {
    if |students| == 0 then []
    else StudentRows(students[0], ps, date, filter) + Joined(students[1..], ps, date, filter)
  }

  // ---------------------------------------------------------------------------
  // ORDER BY a.nome

  predicate SortedByName(rows: seq<AbsentRow>)
  {
    forall i, j :: 0 <= i < j < |rows| ==> LexLe(rows[i].name, rows[j].name)
  }

  /** A row no greater than every row of a list may head it. */
  lemma ConsSorted(h: AbsentRow, rest: seq<AbsentRow>)
    requires SortedByName(rest)
    requires forall y :: y in rest ==> LexLe(h.name, y.name)
    ensures SortedByName([h] + rest)
  {
    var r := [h] + rest;
    forall i, j | 0 <= i < j < |r| ensures LexLe(r[i].name, r[j].name) {
      assert r[j] == rest[j - 1];
      if i > 0 { assert r[i] == rest[i - 1]; } else { assert rest[j - 1] in rest; }
    }
  }

  /** A name no greater than the head of a sorted list is no greater than any of it. */
  lemma BelowHead(name: string, rows: seq<AbsentRow>)
    requires |rows| > 0 && SortedByName(rows) && LexLe(name, rows[0].name)
    ensures forall y :: y in rows ==> LexLe(name, y.name)
  {
    forall y | y in rows ensures LexLe(name, y.name) {
      var j :| 0 <= j < |rows| && rows[j] == y;
      if j > 0 { LexLeTransitive(name, rows[0].name, rows[j].name); }
    }
  }

  /** The head of a sorted list is no greater than anything the rest of it
      holds once a larger row is inserted. */
  lemma HeadBelowInserted(x: AbsentRow, rows: seq<AbsentRow>, rest: seq<AbsentRow>)
    requires |rows| > 0 && SortedByName(rows) && LexLe(rows[0].name, x.name)
    requires multiset(rest) == multiset(rows[1..]) + multiset{x}
    ensures forall y :: y in rest ==> LexLe(rows[0].name, y.name)
  {
    forall y | y in rest ensures LexLe(rows[0].name, y.name) {
      assert y in multiset(rest);
      if y != x {
        assert y in multiset(rows[1..]);
        var j :| 0 <= j < |rows[1..]| && rows[1..][j] == y;
        assert rows[j + 1] == y;
      }
    }
  }

  function InsertByName(x: AbsentRow, rows: seq<AbsentRow>): (r: seq<AbsentRow>)
    requires SortedByName(rows)
    ensures SortedByName(r)
    ensures multiset(r) == multiset(rows) + multiset{x}
  {
    if |rows| == 0 then [x]
    else if LexLe(x.name, rows[0].name) then
      BelowHead(x.name, rows);
      ConsSorted(x, rows);
      [x] + rows
    else
      LexLeTotal(x.name, rows[0].name);
      var rest := InsertByName(x, rows[1..]);
      HeadBelowInserted(x, rows, rest);
      ConsSorted(rows[0], rest);
      assert rows == [rows[0]] + rows[1..];
      [rows[0]] + rest
  }

  /** Insertion sort by name; rows with equal names keep no particular order
      in the database, and here keep their reverse input order. */
  function SortByName(rows: seq<AbsentRow>): (r: seq<AbsentRow>)
    ensures SortedByName(r)
    ensures multiset(r) == multiset(rows)
  {
    if |rows| == 0 then []
    else
      assert rows == [rows[0]] + rows[1..];
      InsertByName(rows[0], SortByName(rows[1..]))
  }

  /** `get_absent_students(run_date, turno_filter)` on a reachable connection. */
  function AbsentStudents(db: Db, date: Date, filter: Option<string>): (r: seq<AbsentRow>)
    ensures SortedByName(r)
    ensures forall x :: x in r ==> exists j :: 0 <= j < |db.students| && Eligible(db.students[j], filter) && x == RowOf(db.students[j])
  {
    var joined := Joined(db.students, db.presences, date, filter);
    var sorted := SortByName(joined);
    SameMembers(sorted, joined);
    sorted
  }

  /** Two orderings of the same rows have the same members. */
  lemma SameMembers(a: seq<AbsentRow>, b: seq<AbsentRow>)
    requires multiset(a) == multiset(b)
    ensures forall x :: x in a <==> x in b
  {
    forall x ensures x in a <==> x in b {
      assert x in a <==> x in multiset(a);
      assert x in b <==> x in multiset(b);
    }
  }

  // ---------------------------------------------------------------------------
  // The absent set, stated directly

  /** No row for the date, or a row with `presente = FALSE`. */
  predicate AbsentOn(s: Student, ps: seq<Presence>, date: Date)
  {
    (forall k :: 0 <= k < |ps| ==> !(ps[k].studentId == s.id && ps[k].date == date))
    || (exists k :: 0 <= k < |ps| && ps[k].studentId == s.id && ps[k].date == date && !ps[k].present)
  }

  /** One row per eligible absent student, in table order. */
  function Expected(students: seq<Student>, ps: seq<Presence>, date: Date, filter: Option<string>): seq<AbsentRow>
  {
    if |students| == 0 then []
    else
      var s := students[0];
      (if Eligible(s, filter) && AbsentOn(s, ps, date) then [RowOf(s)] else [])
        + Expected(students[1..], ps, date, filter)
  }

  lemma {:induction false} NoDayRows(ps: seq<Presence>, id: nat, date: Date)
    requires forall k :: 0 <= k < |ps| ==> !(ps[k].studentId == id && ps[k].date == date)
    ensures DayRows(ps, id, date) == []
  {
    if |ps| > 0 {
      assert forall k :: 0 <= k < |ps[1..]| ==> ps[1..][k] == ps[k + 1];
      NoDayRows(ps[1..], id, date);
    }
  }

  /** Under `UNIQUE(aluno_id, data_presenca)` a student joins at most one row. */
  lemma {:induction false} AtMostOneDayRow(ps: seq<Presence>, id: nat, date: Date)
    requires OnePerDay(ps)
    ensures |DayRows(ps, id, date)| <= 1
  {
    if |ps| > 0 {
      assert OnePerDay(ps[1..]) by {
        forall i, j | 0 <= i < j < |ps[1..]|
          ensures ps[1..][i].studentId != ps[1..][j].studentId || ps[1..][i].date != ps[1..][j].date
        {
          assert ps[1..][i] == ps[i + 1] && ps[1..][j] == ps[j + 1];
        }
      }
      AtMostOneDayRow(ps[1..], id, date);
      if ps[0].studentId == id && ps[0].date == date {
        forall k | 0 <= k < |ps[1..]| ensures !(ps[1..][k].studentId == id && ps[1..][k].date == date) {
          assert ps[1..][k] == ps[k + 1];
        }
        NoDayRows(ps[1..], id, date);
      }
    }
  }

  /** With at most one joined row per student, the query yields exactly one
      row for each eligible absent student. */
  lemma StudentRowsExact(s: Student, ps: seq<Presence>, date: Date, filter: Option<string>)
    requires OnePerDay(ps)
    ensures StudentRows(s, ps, date, filter)
         == (if Eligible(s, filter) && AbsentOn(s, ps, date) then [RowOf(s)] else [])
  {
    if Eligible(s, filter) {
      var m := DayRows(ps, s.id, date);
      AtMostOneDayRow(ps, s.id, date);
      if m == [] {
        forall k | 0 <= k < |ps| ensures !(ps[k].studentId == s.id && ps[k].date == date) {
          assert ps[k] in ps;
        }
      } else {
        var p := m[0];
        assert m == [p];
        assert p in m;
        var kp :| 0 <= kp < |ps| && ps[kp] == p;
        assert AbsentMatches(s, m) == (if p.present then [] else [RowOf(s)]);
        forall k | 0 <= k < |ps| && ps[k].studentId == s.id && ps[k].date == date ensures ps[k] == p {
          assert ps[k] in m;
        }
      }
    }
  }

  lemma {:induction false} JoinedIsExpected(students: seq<Student>, ps: seq<Presence>, date: Date, filter: Option<string>)
    requires OnePerDay(ps)
    ensures Joined(students, ps, date, filter) == Expected(students, ps, date, filter)
  {
    if |students| > 0 {
      StudentRowsExact(students[0], ps, date, filter);
      JoinedIsExpected(students[1..], ps, date, filter);
    }
  }

  lemma {:induction false} ExpectedMembers(students: seq<Student>, ps: seq<Presence>, date: Date, filter: Option<string>, r: AbsentRow)
    ensures r in Expected(students, ps, date, filter) <==>
      exists k :: 0 <= k < |students| && Eligible(students[k], filter) && AbsentOn(students[k], ps, date)
                  && r == RowOf(students[k])
  {
    if |students| > 0 {
      ExpectedMembers(students[1..], ps, date, filter, r);
      if exists k :: 0 <= k < |students[1..]| && Eligible(students[1..][k], filter)
                     && AbsentOn(students[1..][k], ps, date) && r == RowOf(students[1..][k]) {
        var k :| 0 <= k < |students[1..]| && Eligible(students[1..][k], filter)
                 && AbsentOn(students[1..][k], ps, date) && r == RowOf(students[1..][k]);
        assert students[k + 1] == students[1..][k];
      }
      if exists k :: 0 <= k < |students| && Eligible(students[k], filter) && AbsentOn(students[k], ps, date)
                     && r == RowOf(students[k]) {
        var k :| 0 <= k < |students| && Eligible(students[k], filter) && AbsentOn(students[k], ps, date)
                 && r == RowOf(students[k]);
        if k > 0 { assert students[1..][k - 1] == students[k]; }
      }
    }
  }

  /** The absent set of a valid store: ordered by name, one row per eligible
      absent student (as a multiset), and a row is selected exactly when it
      is the row of a student who has a non-empty guardian address, matches
      the filter when one is given, and has no row for the date or a row with
      `presente = FALSE`. */
  lemma AbsentStudentsCharacterized(db: Db, date: Date, filter: Option<string>)
    requires Valid(db)
    ensures var rows := AbsentStudents(db, date, filter);
      && SortedByName(rows)
      && multiset(rows) == multiset(Expected(db.students, db.presences, date, filter))
      && forall r :: r in rows <==>
           exists k :: 0 <= k < |db.students| && Eligible(db.students[k], filter)
                       && AbsentOn(db.students[k], db.presences, date) && r == RowOf(db.students[k])
  {
    PairwiseOnePerDay(db.presences);
    JoinedIsExpected(db.students, db.presences, date, filter);
    var rows := AbsentStudents(db, date, filter);
    forall r ensures r in rows <==>
      exists k :: 0 <= k < |db.students| && Eligible(db.students[k], filter)
                  && AbsentOn(db.students[k], db.presences, date) && r == RowOf(db.students[k])
    {
      ExpectedMembers(db.students, db.presences, date, filter, r);
      assert r in rows <==> r in multiset(rows);
      assert r in Expected(db.students, db.presences, date, filter)
         <==> r in multiset(Expected(db.students, db.presences, date, filter));
    }
  }

  /** A student with a present row for the date is never notified, whatever
      else holds. */
  lemma PresentStudentExcluded(db: Db, date: Date, filter: Option<string>, k: nat, j: nat)
    requires Valid(db)
    requires k < |db.students| && j < |db.presences|
    requires db.presences[j].studentId == db.students[k].id && db.presences[j].date == date && db.presences[j].present
    ensures !AbsentOn(db.students[k], db.presences, date)
  {
    PairwiseOnePerDay(db.presences);
    forall i | 0 <= i < |db.presences| && db.presences[i].studentId == db.students[k].id
               && db.presences[i].date == date
      ensures i == j
    {
    }
  }
}

=== FILE: attendance.dfy ===
/** `registrar_presenca`: the attendance toggle. A scan of a student who
    already has a row today deletes that row; otherwise one present row is
    inserted for every student carrying the scanned name. */
module Attendance {
  import opened Wrappers
  import opened Calendar
  import opened Store

  /** The Python value `registrar_presenca` returns: the string "apagada", True,
      False (a database error) or None (no connection). */
  datatype PresenceResult = Apagada | Registered | Failed | NoConnection

  /** Python truthiness of the returned value: "apagada" and True are truthy. */
  predicate PyTruthy(r: PresenceResult)
  {
    r.Apagada? || r.Registered?
  }

  datatype Toggled = Toggled(db: Db, result: PresenceResult)

  /** The row belongs to a student with this name and is dated today
      (the JOIN ... WHERE a.nome = %s AND p.data_presenca = CURRENT_DATE). */
  predicate IsTodayRowOf(students: seq<Student>, name: string, today: Date, p: Presence)
  {
    p.date == today && exists k :: 0 <= k < |students| && students[k].id == p.studentId && students[k].name == name
  }

  /** The first matching row in table order (`cur.fetchone()`). */
  function FindToday(students: seq<Student>, ps: seq<Presence>, name: string, today: Date): (r: Option<nat>)
    ensures r.Some? ==> r.value < |ps| && IsTodayRowOf(students, name, today, ps[r.value])
    ensures r.Some? ==> forall k :: 0 <= k < r.value ==> !IsTodayRowOf(students, name, today, ps[k])
    ensures r.None? ==> forall k :: 0 <= k < |ps| ==> !IsTodayRowOf(students, name, today, ps[k])
  {
    if |ps| == 0 then None
    else if IsTodayRowOf(students, name, today, ps[0]) then Some(0)
    else
      match FindToday(students, ps[1..], name, today)
      case None => None
      case Some(i) => Some(i + 1)
  }

  /** `DELETE FROM presencas WHERE id = %s`. */
  function RemoveById(ps: seq<Presence>, id: nat): (r: seq<Presence>)
    ensures |r| <= |ps|
    ensures forall p :: p in r ==> p in ps
  {
    if |ps| == 0 then []
    else if ps[0].id == id then RemoveById(ps[1..], id)
    else [ps[0]] + RemoveById(ps[1..], id)
  }

  /** The rows left after the delete are exactly the rows with another id. */
  lemma {:induction false} RemoveByIdMembers(ps: seq<Presence>, id: nat, p: Presence)
    ensures p in RemoveById(ps, id) <==> p in ps && p.id != id
  {
    if |ps| > 0 {
      RemoveByIdMembers(ps[1..], id, p);
      assert p in ps <==> p == ps[0] || p in ps[1..];
    }
  }

  /** The rows `INSERT INTO presencas (aluno_id, presente, confianca) SELECT id, TRUE, %s`
      produces for the given students, with consecutive SERIAL ids from `next`. */
  function NewRows(ns: seq<Student>, confidence: real, today: Date, next: nat): (rows: seq<Presence>)
    ensures |rows| == |ns|
    ensures forall k :: 0 <= k < |rows| ==>
      rows[k] == Presence(next + k, ns[k].id, today, true, confidence)
  {
    if |ns| == 0 then []
    else [Presence(next, ns[0].id, today, true, confidence)] + NewRows(ns[1..], confidence, today, next + 1)
  }

  /** `registrar_presenca(nome_aluno, confianca)` on the day `today`. Every
      failure leaves the store unchanged: the statement's transaction is
      rolled back. */
  function Toggle(db: Db, env: DbEnv, name: string, confidence: real, today: Date): (r: Toggled)
    ensures r.db.students == db.students
    ensures r.result.Apagada? || r.result.Registered? || r.db == db
    ensures r.result.NoConnection? <==> env.Unavailable?
  {
    match env
    case Unavailable => Toggled(db, NoConnection)
    case Faulty => Toggled(db, Failed)
    case Healthy =>
      match FindToday(db.students, db.presences, name, today)
      case Some(i) =>
        Toggled(db.(presences := RemoveById(db.presences, db.presences[i].id)), Apagada)
      case None =>
        var rows := NewRows(Namesakes(db.students, name), confidence, today, db.nextPresenceId);
        if rows != [] && !FitsConfidence(confidence) then Toggled(db, Failed)
        else if !Pairwise(db.presences + rows) then Toggled(db, Failed)
        else Toggled(db.(presences := db.presences + rows,
                         nextPresenceId := db.nextPresenceId + |rows|), Registered)
  }

  // ---------------------------------------------------------------------------
  // Properties

  /** No other row shares the key of row `i`. */
  predicate KeyUnique(ps: seq<Presence>, i: nat)
    requires i < |ps|
  {
    forall k :: 0 <= k < |ps| && k != i ==> ps[k].id != ps[i].id
  }

  /** In a table that keeps its primary key, every row's key is unique. */
  lemma PairwiseKeyUnique(ps: seq<Presence>, i: nat)
    requires i < |ps| && Pairwise(ps)
    ensures KeyUnique(ps, i)
  {
    forall k | 0 <= k < |ps| && k != i ensures ps[k].id != ps[i].id {
      if k < i { assert Compatible(ps[k], ps[i]); } else { assert Compatible(ps[i], ps[k]); }
    }
  }

  /** Deleting by a primary key that one row holds removes exactly that row. */
  lemma {:induction false} RemoveUniqueId(ps: seq<Presence>, i: nat)
    requires i < |ps| && KeyUnique(ps, i)
    ensures RemoveById(ps, ps[i].id) == ps[..i] + ps[i + 1..]
  {
    var tail := ps[1..];
    if i == 0 {
      assert forall p :: p in tail ==> p.id != ps[0].id;
      RemoveAbsentId(tail, ps[0].id);
    } else {
      assert KeyUnique(tail, i - 1) by {
        forall k | 0 <= k < |tail| && k != i - 1 ensures tail[k].id != tail[i - 1].id {
          assert tail[k] == ps[k + 1];
        }
      }
      RemoveUniqueId(tail, i - 1);
      assert ps[0].id != ps[i].id;
      calc {
        RemoveById(ps, ps[i].id);
        [ps[0]] + RemoveById(tail, ps[i].id);
        [ps[0]] + (tail[..i - 1] + tail[i..]);
        { assert tail[..i - 1] == ps[1..i] && tail[i..] == ps[i + 1..]; }
        [ps[0]] + (ps[1..i] + ps[i + 1..]);
        { assert [ps[0]] + ps[1..i] == ps[..i]; }
        ps[..i] + ps[i + 1..];
      }
    }
  }

  lemma {:induction false} RemoveAbsentId(ps: seq<Presence>, id: nat)
    requires forall p :: p in ps ==> p.id != id
    ensures RemoveById(ps, id) == ps
  {
    if |ps| > 0 {
      assert ps[0] in ps;
      assert forall p :: p in ps[1..] ==> p in ps;
      RemoveAbsentId(ps[1..], id);
      assert ps == [ps[0]] + ps[1..];
    }
  }

  /** Removing a range of the table keeps its constraints. */
  lemma DropKeepsPairwise(ps: seq<Presence>, i: nat)
    requires i < |ps| && Pairwise(ps)
    ensures Pairwise(ps[..i] + ps[i + 1..])
  {
    var r := ps[..i] + ps[i + 1..];
    forall a, b | 0 <= a < b < |r| ensures Compatible(r[a], r[b]) {
      var a' := if a < i then a else a + 1;
      var b' := if b < i then b else b + 1;
      assert r[a] == ps[a'] && r[b] == ps[b'];
    }
  }

  /** When a student with the scanned name has a row today, the first such row
      (in table order) is deleted, nothing is inserted, the result is "apagada"
      and every other row stays in place. */
  lemma ToggleRemovesTodayRow(db: Db, name: string, confidence: real, today: Date)
    requires Valid(db)
    requires exists k :: 0 <= k < |db.presences| && IsTodayRowOf(db.students, name, today, db.presences[k])
    ensures var r := Toggle(db, Healthy, name, confidence, today);
      && r.result == Apagada
      && r.db.nextPresenceId == db.nextPresenceId
      && exists i :: 0 <= i < |db.presences|
           && IsTodayRowOf(db.students, name, today, db.presences[i])
           && (forall k :: 0 <= k < i ==> !IsTodayRowOf(db.students, name, today, db.presences[k]))
           && r.db.presences == db.presences[..i] + db.presences[i + 1..]
  {
    var i := FindToday(db.students, db.presences, name, today).value;
    PairwiseKeyUnique(db.presences, i);
    RemoveUniqueId(db.presences, i);
  }

  /** Students sharing a name are still distinct students: the namesakes of a
      valid table have pairwise distinct ids. */
  predicate IdsDistinct(ss: seq<Student>)
  {
    forall i, j :: 0 <= i < j < |ss| ==> ss[i].id != ss[j].id
  }

  lemma {:induction false} NamesakesDistinct(students: seq<Student>, name: string)
    requires IdsDistinct(students)
    ensures IdsDistinct(Namesakes(students, name))
  {
    if |students| > 0 {
      var tail := students[1..];
      TailDistinct(students);
      NamesakesDistinct(tail, name);
      var rest := Namesakes(tail, name);
      forall s | s in rest ensures s.id != students[0].id {
        HeadIdUnique(students, s);
      }
      if students[0].name == name {
        ConsDistinct(students[0], rest);
      }
    }
  }

  lemma TailDistinct(ss: seq<Student>)
    requires |ss| > 0 && IdsDistinct(ss)
    ensures IdsDistinct(ss[1..])
  {
    var tail := ss[1..];
    forall i, j | 0 <= i < j < |tail| ensures tail[i].id != tail[j].id {
      assert tail[i] == ss[i + 1] && tail[j] == ss[j + 1];
    }
  }

  /** No later row of a table with distinct ids shares the first row's id. */
  lemma HeadIdUnique(ss: seq<Student>, s: Student)
    requires |ss| > 0 && IdsDistinct(ss) && s in ss[1..]
    ensures s.id != ss[0].id
  {
    var j :| 0 <= j < |ss[1..]| && ss[1..][j] == s;
    assert ss[j + 1] == s;
  }

  lemma ConsDistinct(h: Student, rest: seq<Student>)
    requires IdsDistinct(rest) && forall s | s in rest :: s.id != h.id
    ensures IdsDistinct([h] + rest)
  {
    var ns := [h] + rest;
    forall i, j | 0 <= i < j < |ns| ensures ns[i].id != ns[j].id {
      assert ns[j] == rest[j - 1];
      if i > 0 {
        assert ns[i] == rest[i - 1];
      } else {
        assert rest[j - 1] in rest;
      }
    }
  }

  /** Fresh SERIAL ids never collide with the ids already in the table. */
  lemma NewRowsFreshIds(db: Db, ns: seq<Student>, confidence: real, today: Date)
    requires Valid(db)
    ensures var rows := NewRows(ns, confidence, today, db.nextPresenceId);
      forall a, b :: 0 <= a < |db.presences| && 0 <= b < |rows| ==> db.presences[a].id != rows[b].id
  {
  }

  /** No existing row is for a namesake today, since such a row would have
      been found by the lookup. */
  lemma NoNamesakeRowToday(db: Db, name: string, today: Date, p: Presence, s: Student)
    requires FindToday(db.students, db.presences, name, today).None?
    requires p in db.presences && s in Namesakes(db.students, name)
    ensures p.studentId != s.id || p.date != today
  {
    assert s in db.students;
    var j :| 0 <= j < |db.students| && db.students[j] == s;
    var a :| 0 <= a < |db.presences| && db.presences[a] == p;
    assert !IsTodayRowOf(db.students, name, today, db.presences[a]);
  }

  /** The inserted rows are compatible with each other. */
  lemma NewRowsPairwise(db: Db, name: string, confidence: real, today: Date)
    requires Valid(db)
    ensures Pairwise(NewRows(Namesakes(db.students, name), confidence, today, db.nextPresenceId))
  {
    NamesakesDistinct(db.students, name);
  }

  /** With no row today for the name, the insert never violates a constraint
      of a valid table. */
  lemma InsertCompatible(db: Db, name: string, confidence: real, today: Date)
    requires Valid(db)
    requires FindToday(db.students, db.presences, name, today).None?
    ensures Pairwise(db.presences + NewRows(Namesakes(db.students, name), confidence, today, db.nextPresenceId))
  {
    var ps := db.presences;
    var ns := Namesakes(db.students, name);
    var rows := NewRows(ns, confidence, today, db.nextPresenceId);
    var all := ps + rows;
    NewRowsPairwise(db, name, confidence, today);
    NewRowsFreshIds(db, ns, confidence, today);
    forall a, b | 0 <= a < b < |all| ensures Compatible(all[a], all[b]) {
      if b >= |ps| {
        assert all[b] == rows[b - |ps|];
        if a < |ps| {
          assert all[a] == ps[a];
          NoNamesakeRowToday(db, name, today, ps[a], ns[b - |ps|]);
        } else {
          assert all[a] == rows[a - |ps|];
        }
      } else {
        assert all[a] == ps[a] && all[b] == ps[b];
      }
    }
  }

  /** With no row today for the name, the result is True and one present row
      with the given confidence, dated today, is appended for every student of
      that name, in table order; with no such student nothing is written and
      the result is still True. */
  lemma ToggleInsertsForNamesakes(db: Db, name: string, confidence: real, today: Date)
    requires Valid(db) && FitsConfidence(confidence)
    requires forall k :: 0 <= k < |db.presences| ==> !IsTodayRowOf(db.students, name, today, db.presences[k])
    ensures var r := Toggle(db, Healthy, name, confidence, today);
      var ns := Namesakes(db.students, name);
      && r.result == Registered
      && |r.db.presences| == |db.presences| + |ns|
      && r.db.presences[..|db.presences|] == db.presences
      && (forall k :: 0 <= k < |ns| ==>
            var p := r.db.presences[|db.presences| + k];
            p.studentId == ns[k].id && p.date == today && p.present && p.confidence == confidence)
      && (ns == [] ==> r.db == db)
  {
    assert FindToday(db.students, db.presences, name, today).None?;
    InsertCompatible(db, name, confidence, today);
    AppendOutcome(db, name, confidence, today);
  }

  /** When the lookup misses and the insert keeps the constraints, the new
      rows are appended after the old ones. */
  lemma AppendOutcome(db: Db, name: string, confidence: real, today: Date)
    requires FitsConfidence(confidence)
    requires FindToday(db.students, db.presences, name, today).None?
    requires Pairwise(db.presences + NewRows(Namesakes(db.students, name), confidence, today, db.nextPresenceId))
    ensures var r := Toggle(db, Healthy, name, confidence, today);
      var ns := Namesakes(db.students, name);
      && r.result == Registered
      && |r.db.presences| == |db.presences| + |ns|
      && r.db.presences[..|db.presences|] == db.presences
      && (forall k :: 0 <= k < |ns| ==>
            var p := r.db.presences[|db.presences| + k];
            p.studentId == ns[k].id && p.date == today && p.present && p.confidence == confidence)
      && (ns == [] ==> r.db == db)
  {
    var ns := Namesakes(db.students, name);
    var rows := NewRows(ns, confidence, today, db.nextPresenceId);
    var all := db.presences + rows;
    assert Toggle(db, Healthy, name, confidence, today)
      == Toggled(db.(presences := all, nextPresenceId := db.nextPresenceId + |rows|), Registered);
    assert all[..|db.presences|] == db.presences;
    assert forall k :: 0 <= k < |ns| ==> all[|db.presences| + k] == rows[k];
  }

  /** A confidence the DECIMAL(5,2) column cannot hold makes the insert fail
      whenever some student carries the name. */
  lemma ToggleRejectsOversizedConfidence(db: Db, name: string, confidence: real, today: Date)
    requires !FitsConfidence(confidence)
    requires FindToday(db.students, db.presences, name, today).None?
    requires Namesakes(db.students, name) != []
    ensures Toggle(db, Healthy, name, confidence, today) == Toggled(db, Failed)
  {
  }

  /** An exception inside the transaction is caught and reported as False: the
      store is rolled back and the caller sees a failure. */
  lemma ToggleFaultyFails(db: Db, name: string, confidence: real, today: Date)
    ensures Toggle(db, Faulty, name, confidence, today) == Toggled(db, Failed)
    ensures !PyTruthy(Toggle(db, Faulty, name, confidence, today).result)
  {
  }

  /** The toggle keeps every schema constraint. */
  lemma TogglePreservesValid(db: Db, env: DbEnv, name: string, confidence: real, today: Date)
    requires Valid(db)
    ensures Valid(Toggle(db, env, name, confidence, today).db)
  {
    if env.Healthy? {
      match FindToday(db.students, db.presences, name, today)
      case Some(i) =>
        RemoveKeepsValid(db, i);
      case None =>
        var rows := NewRows(Namesakes(db.students, name), confidence, today, db.nextPresenceId);
        if (rows == [] || FitsConfidence(confidence)) && Pairwise(db.presences + rows) {
          InsertKeepsValid(db, name, confidence, today);
        }
    }
  }

  /** Deleting a row by its key keeps a valid store valid. */
  lemma RemoveKeepsValid(db: Db, i: nat)
    requires Valid(db) && i < |db.presences|
    ensures Valid(db.(presences := RemoveById(db.presences, db.presences[i].id)))
  {
    PairwiseKeyUnique(db.presences, i);
    RemoveUniqueId(db.presences, i);
    DropKeepsPairwise(db.presences, i);
    var rest := RemoveById(db.presences, db.presences[i].id);
    forall k | 0 <= k < |rest| ensures rest[k] in db.presences {
      assert rest[k] in rest;
    }
  }

  /** Appending the namesakes' rows, when that keeps the table's constraints
      and the confidence fits, keeps a valid store valid. */
  lemma InsertKeepsValid(db: Db, name: string, confidence: real, today: Date)
    requires Valid(db)
    requires var rows := NewRows(Namesakes(db.students, name), confidence, today, db.nextPresenceId);
      (rows == [] || FitsConfidence(confidence)) && Pairwise(db.presences + rows)
    ensures var rows := NewRows(Namesakes(db.students, name), confidence, today, db.nextPresenceId);
      Valid(db.(presences := db.presences + rows, nextPresenceId := db.nextPresenceId + |rows|))
  {
    var ns := Namesakes(db.students, name);
    var rows := NewRows(ns, confidence, today, db.nextPresenceId);
    var d := db.(presences := db.presences + rows, nextPresenceId := db.nextPresenceId + |rows|);
    forall k | 0 <= k < |d.presences|
      ensures d.presences[k].id < d.nextPresenceId
      ensures HasStudent(d.students, d.presences[k].studentId)
      ensures FitsConfidence(d.presences[k].confidence)
    {
      if k >= |db.presences| {
        var s := ns[k - |db.presences|];
        assert s in db.students;
        var j :| 0 <= j < |db.students| && db.students[j] == s;
      }
    }
  }

  /** The toggle never writes a row with `presente = FALSE`: every row after
      the call was there before or is present. */
  lemma ToggleNeverWritesAbsent(db: Db, env: DbEnv, name: string, confidence: real, today: Date)
    ensures var r := Toggle(db, env, name, confidence, today);
      forall p :: p in r.db.presences ==> p in db.presences || p.present
  {
  }

  /** The lookup finds a row appended after rows that do not match. */
  lemma {:induction false} FindAppended(students: seq<Student>, ps: seq<Presence>, x: Presence, name: string, today: Date)
    requires forall k :: 0 <= k < |ps| ==> !IsTodayRowOf(students, name, today, ps[k])
    requires IsTodayRowOf(students, name, today, x)
    ensures FindToday(students, ps + [x], name, today) == Some(|ps|)
  {
    if |ps| > 0 {
      assert (ps + [x])[1..] == ps[1..] + [x];
      FindAppended(students, ps[1..], x, name, today);
    }
  }

  /** With exactly one student of that name and no row for it today, a second
      scan on the same day undoes the first: the attendance table is back to
      what it was before the first scan. */
  lemma ToggleTwiceRestores(db: Db, name: string, confidence: real, today: Date)
    requires Valid(db) && FitsConfidence(confidence)
    requires |Namesakes(db.students, name)| == 1
    requires forall k :: 0 <= k < |db.presences| ==> !IsTodayRowOf(db.students, name, today, db.presences[k])
    ensures var first := Toggle(db, Healthy, name, confidence, today);
      var second := Toggle(first.db, Healthy, name, confidence, today);
      && first.result == Registered
      && second.result == Apagada
      && second.db.presences == db.presences
  {
    var x := Presence(db.nextPresenceId, Namesakes(db.students, name)[0].id, today, true, confidence);
    FirstScanAppends(db, name, confidence, today);
    var first := Toggle(db, Healthy, name, confidence, today);
    SecondScanRemoves(first.db, db.presences, x, name, confidence, today);
  }

  /** The first scan of a single student with no row today appends one row
      for that student, and that row is today's row for the name. */
  lemma FirstScanAppends(db: Db, name: string, confidence: real, today: Date)
    requires Valid(db) && FitsConfidence(confidence)
    requires |Namesakes(db.students, name)| == 1
    requires forall k :: 0 <= k < |db.presences| ==> !IsTodayRowOf(db.students, name, today, db.presences[k])
    ensures var x := Presence(db.nextPresenceId, Namesakes(db.students, name)[0].id, today, true, confidence);
      var r := Toggle(db, Healthy, name, confidence, today);
      && r.result == Registered
      && r.db.presences == db.presences + [x]
      && r.db.students == db.students
      && Pairwise(r.db.presences)
      && IsTodayRowOf(db.students, name, today, x)
  {
    var ns := Namesakes(db.students, name);
    var x := Presence(db.nextPresenceId, ns[0].id, today, true, confidence);
    var rows := NewRows(ns, confidence, today, db.nextPresenceId);
    assert rows == [x];
    assert FindToday(db.students, db.presences, name, today).None?;
    InsertCompatible(db, name, confidence, today);
    assert ns[0] in db.students;
    var j :| 0 <= j < |db.students| && db.students[j] == ns[0];
  }

  /** A second scan finds the appended row, the only row with its key, and
      deletes it. */
  lemma SecondScanRemoves(d: Db, ps: seq<Presence>, x: Presence, name: string, confidence: real, today: Date)
    requires d.presences == ps + [x] && Pairwise(ps + [x])
    requires forall k :: 0 <= k < |ps| ==> !IsTodayRowOf(d.students, name, today, ps[k])
    requires IsTodayRowOf(d.students, name, today, x)
    ensures var r := Toggle(d, Healthy, name, confidence, today);
      r.result == Apagada && r.db.presences == ps
  {
    FindAppended(d.students, ps, x, name, today);
    PairwiseKeyUnique(ps + [x], |ps|);
    RemoveUniqueId(ps + [x], |ps|);
    assert (ps + [x])[..|ps|] + (ps + [x])[|ps| + 1..] == ps;
  }
}

=== FILE: calendar.dfy ===
/** Calendar dates as the database's DATE column holds them, and their
    `%d/%m/%Y` rendering used in absence notices. */
module Calendar {
  import opened Wrappers
  import opened Text

  datatype Date = Date(year: nat, month: nat, day: nat)

  function DaysInMonth(year: nat, month: nat): nat
  {
    if month == 2 then
      (if (year % 4 == 0 && year % 100 != 0) || year % 400 == 0 then 29 else 28)
    else if month == 4 || month == 6 || month == 9 || month == 11 then 30
    else 31
  }

  /** The dates Python's `datetime.date` can hold (years 1 to 9999). */
  predicate ValidDate(d: Date)
  {
    1 <= d.year <= 9999 && 1 <= d.month <= 12 && 1 <= d.day <= DaysInMonth(d.year, d.month)
  }

  /** Two zero-padded digits. */
  function Pad2(n: nat): (s: string)
    requires n < 100
    ensures |s| == 2 && AllDigits(s)
  {
    [DigitChar(n / 10), DigitChar(n % 10)]
  }

  /** Four zero-padded digits. */
  function Pad4(n: nat): (s: string)
    requires n < 10000
    ensures |s| == 4 && AllDigits(s)
  {
    [DigitChar(n / 1000), DigitChar(n / 100 % 10), DigitChar(n / 10 % 10), DigitChar(n % 10)]
  }

  /** `date.strftime("%d/%m/%Y")`. */
  function FormatDate(d: Date): (s: string)
    requires ValidDate(d)
    ensures |s| == 10 && s[2] == '/' && s[5] == '/'
  {
    Pad2(d.day) + "/" + Pad2(d.month) + "/" + Pad4(d.year)
  }

  /** Reads a `dd/mm/yyyy` text back into a date. */
  function ParseDate(s: string): Option<Date>
  {
    if |s| == 10 && s[2] == '/' && s[5] == '/'
       && AllDigits(s[..2]) && AllDigits(s[3..5]) && AllDigits(s[6..])
    then Some(Date(DigitsValue(s[6..]), DigitsValue(s[3..5]), DigitsValue(s[..2])))
    else None
  }

  lemma DigitValueOfDigitChar(n: nat)
    requires n < 10
    ensures DigitValue(DigitChar(n)) == n
  {
  }

  lemma {:induction false} Pad2Value(n: nat)
    requires n < 100
    ensures DigitsValue(Pad2(n)) == n
  {
    var s := Pad2(n);
    assert s[..1][..0] == [];
    assert s[..1] == [DigitChar(n / 10)];
    DigitValueOfDigitChar(n / 10);
    DigitValueOfDigitChar(n % 10);
  }

  lemma FourDigitSplit(n: nat)
    requires n < 10000
    ensures ((n / 1000 * 10 + n / 100 % 10) * 10 + n / 10 % 10) * 10 + n % 10 == n
  {
    var q := n / 10;
    assert n == q * 10 + n % 10;
    assert q / 10 == n / 100;
    assert q / 100 == n / 1000;
    assert q == q / 10 * 10 + q % 10;
    assert q / 10 == q / 100 * 10 + q / 10 % 10;
  }

  lemma {:induction false} Pad4Value(n: nat)
    requires n < 10000
    ensures DigitsValue(Pad4(n)) == n
  {
    var s := Pad4(n);
    var a, b, c, d := n / 1000, n / 100 % 10, n / 10 % 10, n % 10;
    DigitValueOfDigitChar(a);
    DigitValueOfDigitChar(b);
    DigitValueOfDigitChar(c);
    DigitValueOfDigitChar(d);
    assert s[..1][..0] == [];
    assert s[..1] == [DigitChar(a)];
    assert s[..2][..1] == s[..1];
    assert s[..3][..2] == s[..2];
    assert s[..4][..3] == s[..3];
    assert s[..4] == s;
    assert DigitsValue(s[..1]) == a;
    assert s[..2][1] == s[1] && s[..3][2] == s[2] && s[..4][3] == s[3];
    assert DigitsValue(s[..2]) == a * 10 + b;
    assert DigitsValue(s[..3]) == (a * 10 + b) * 10 + c;
    assert DigitsValue(s) == ((a * 10 + b) * 10 + c) * 10 + d;
    FourDigitSplit(n);
  }

  /** The rendered date reads back as the same date: `%d/%m/%Y` loses nothing. */
  lemma {:induction false} FormatDateRoundTrip(d: Date)
    requires ValidDate(d)
    ensures ParseDate(FormatDate(d)) == Some(d)
  {
    var s := FormatDate(d);
    assert s[..2] == Pad2(d.day);
    assert s[3..5] == Pad2(d.month);
    assert s[6..] == Pad4(d.year);
    Pad2Value(d.day);
    Pad2Value(d.month);
    Pad4Value(d.year);
  }

  /** Distinct dates are never rendered alike. */
  lemma FormatDateInjective(a: Date, b: Date)
    requires ValidDate(a) && ValidDate(b) && FormatDate(a) == FormatDate(b)
    ensures a == b
  {
    FormatDateRoundTrip(a);
    FormatDateRoundTrip(b);
  }
}

=== FILE: enrollment.dfy ===
/** `cadastrar_alunos`: every photo in the `alunos` folder is sent to face
    detection; a detected face maps its token to the file's name, becomes a
    student row unless that name or token is already enrolled, and is added to
    the collection. */
module Enrollment {
  import opened Wrappers
  import opened Text
  import opened PyJson
  import opened Store
  import opened Identity
  import opened Http
  import opened FaceSet

  /** A directory entry together with what handling it meets: whether
      `open(caminho, "rb")` succeeds (it fails on a subdirectory or an
      unreadable file), the detect request, the database connection and the
      addface request. */
  datatype Entry = Entry(fileName: string, readable: bool, detect: Exchange, db: DbEnv, addFace: Exchange)

  /** One line of the returned log. */
  datatype LogLine =
    | AlreadyEnrolled(name: string)          // "... já está cadastrado."
    | Enrolled(name: string)                 // "... cadastrado no banco."
    | AddFaceFailed(name: string, answer: Json)
    | AddFaceOk(name: string)
    | SaveFailed(name: string)               // "Erro ao salvar aluno ..."
    | DetectFailed(name: string, reason: Json)

  /** The route's reply. */
  datatype Reply =
    | FolderMissing                          // 404
    | NoPhotos                               // 200, "Nenhuma foto encontrada"
    | Done(log: seq<LogLine>)                // 200, "Cadastro concluído."
    | InternalError                          // an uncaught exception: 500

  /** The route's effect: the store (rows are committed file by file, so they
      stay even when a later file raises), the token map written to disk if
      the route reaches `salvar_tokens`, and the reply. */
  datatype Outcome = Outcome(db: Db, saved: Option<TokenMap>, reply: Reply)

  /** `not f.startswith('.')`. */
  predicate Visible(fileName: string)
  {
    !StartsWith(fileName, ".")
  }

  function VisibleEntries(es: seq<Entry>): (r: seq<Entry>)
    ensures forall e :: e in r <==> e in es && Visible(e.fileName)
    ensures |r| <= |es|
  {
    if |es| == 0 then []
    else if Visible(es[0].fileName) then [es[0]] + VisibleEntries(es[1..])
    else VisibleEntries(es[1..])
  }

  /** Index of the last '.' of `s`, if any. */
  function LastDot(s: string): (r: Option<nat>)
    ensures r.Some? ==> r.value < |s| && s[r.value] == '.' && forall k :: r.value < k < |s| ==> s[k] != '.'
    ensures r.None? ==> forall k :: 0 <= k < |s| ==> s[k] != '.'
  {
    if |s| == 0 then None
    else if s[|s| - 1] == '.' then Some(|s| - 1)
    else LastDot(s[..|s| - 1])
  }

  /** `os.path.splitext(f)[0]`: the name without its last extension; a dot
      preceded only by dots does not start an extension. */
  function StudentName(fileName: string): (name: string)
    ensures StartsWith(fileName, name)
    ensures name == fileName || (LastDot(fileName) == Some(|name|) && exists k :: 0 <= k < |name| && fileName[k] != '.')
    ensures LastDot(fileName).None? ==> name == fileName
  {
    match LastDot(fileName)
    case Some(i) =>
      if exists k :: 0 <= k < i && fileName[k] != '.' then fileName[..i] else fileName
    case None => fileName
  }

  /** `splitext("maria.jpg")[0] == "maria"`: a base holding a character other
      than '.', followed by one last extension, loses exactly that extension. */
  lemma DropsLastExtension(base: string, ext: string)
    requires exists k :: 0 <= k < |base| && base[k] != '.'
    requires '.' !in ext
    ensures StudentName(base + "." + ext) == base
  {
    var f := base + "." + ext;
    assert f[|base|] == '.';
    assert forall k :: |base| < k < |f| ==> f[k] == ext[k - |base| - 1];
    var i := LastDot(f).value;
    assert i == |base|;
    var k :| 0 <= k < |base| && base[k] != '.';
    assert f[k] == base[k];
    assert f[..i] == base;
  }

  /** A name made of dots and then one extension, such as ".jpg", has no
      extension for `splitext`: it is kept whole. */
  lemma HiddenNameKept(dots: string, ext: string)
    requires forall k :: 0 <= k < |dots| ==> dots[k] == '.'
    requires '.' !in ext
    ensures StudentName(dots + "." + ext) == dots + "." + ext
  {
    var f := dots + "." + ext;
    assert f[|dots|] == '.';
    assert forall k :: |dots| < k < |f| ==> f[k] == ext[k - |dots| - 1];
    assert LastDot(f).value == |dots|;
    assert forall k :: 0 <= k < |dots| ==> f[k] == dots[k];
  }

  /** `detect_response.get("faces")` and, when truthy, `["faces"][0]["face_token"]`:
      Some token, None when no face was detected, Raised on a malformed answer.
      A non-string token is treated as malformed. */
  function DetectedToken(answer: Json): (r: Eval<Option<string>>)
    ensures !answer.Obj? ==> r.Raised?
    ensures r == Value(None) <==> answer.Obj? && ("faces" !in answer.fields || !Truthy(answer.fields["faces"]))
    ensures r.Value? && r.value.Some? ==>
      && answer.Obj? && "faces" in answer.fields && answer.fields["faces"].Arr?
      && answer.fields["faces"].items != []
      && var face := answer.fields["faces"].items[0];
         face.Obj? && "face_token" in face.fields && face.fields["face_token"] == Str(r.value.value)
  {
    if !answer.Obj? then Raised
    else
      var faces := Get(answer.fields, "faces");
      if faces.None? || !Truthy(faces.value) then Value(None)
      else
        match First(faces.value)
        case Raised => Raised
        case Value(face) =>
          if face.Obj? && "face_token" in face.fields && face.fields["face_token"].Str?
          then Value(Some(face.fields["face_token"].s))
          else Raised
  }

  /** The log reason for a photo without a face: the answer's "error", else its
      details' "error_message", else "Nenhum rosto detectado". */
  function DetectFailure(m: map<string, Json>): (r: Eval<Json>)
    ensures "error" in m && Truthy(m["error"]) ==> r == Value(m["error"])
    ensures r.Raised? <==>
      && !("error" in m && Truthy(m["error"]))
      && "details" in m && Truthy(m["details"]) && !m["details"].Obj?
    ensures r.Value? ==> Truthy(r.value)
  {
    var e := Get(m, "error");
    if e.Some? && Truthy(e.value) then Value(e.value)
    else
      match NestedGet(m, "details", "error_message")
      case Raised => Raised
      case Value(msg) => Value(OrElse(msg, Str("Nenhum rosto detectado")))
  }

  /** A row already matches `WHERE nome = %s OR face_token = %s`. */
  predicate AlreadyThere(students: seq<Student>, name: string, token: string)
  {
    exists k :: 0 <= k < |students| && (students[k].name == name || students[k].faceToken == token)
  }

  /** `INSERT INTO alunos (nome, face_token)`: None when a column constraint
      rejects the row. */
  function InsertStudent(db: Db, name: string, token: string): (r: Option<Db>)
    ensures r.Some? ==> r.value.students == db.students + [Student(db.nextStudentId, name, token, None, None)]
    ensures r.Some? ==> r.value.presences == db.presences
  {
    if |name| > NameMax || |token| > TokenMax then None
    else if exists k :: 0 <= k < |db.students| && db.students[k].faceToken == token then None
    else Some(db.(students := db.students + [Student(db.nextStudentId, name, token, None, None)],
                  nextStudentId := db.nextStudentId + 1))
  }

  /** The database part and the addface call for a detected face. */
  function SaveFace(db: Db, e: Entry, name: string, token: string): (r: (Db, seq<LogLine>))
    ensures r.0.presences == db.presences
    ensures !e.db.Healthy? ==> r.0 == db
    ensures e.db.Unavailable? <==> r.1 == []
    ensures e.db.Faulty? ==> r.1 == [SaveFailed(name)]
  {
    match e.db
    case Unavailable => (db, [])
    case Faulty => (db, [SaveFailed(name)])
    case Healthy =>
      var (db1, line) :=
        if AlreadyThere(db.students, name, token) then (Some(db), AlreadyEnrolled(name))
        else
          match InsertStudent(db, name, token)
          case None => (None, SaveFailed(name))
          case Some(d) => (Some(d), Enrolled(name));
      if db1.None? then (db, [line])
      else
        var answer := RequestJsonSafe(AddFaceUrl, e.addFace);
        match In("error", answer)
        case Raised => (db1.value, [line, SaveFailed(name)])
        case Value(true) => (db1.value, [line, AddFaceFailed(name, answer)])
        case Value(false) => (db1.value, [line, AddFaceOk(name)])
  }

  /** The state threaded through the loop over the photos. */
  datatype Progress = Progress(db: Db, tokens: TokenMap, log: seq<LogLine>, crashed: bool)

  /** One iteration of the loop. */
  function Step(p: Progress, e: Entry): (r: Progress)
    requires !p.crashed
    ensures |r.log| >= |p.log| && r.log[..|p.log|] == p.log
  {
    var name := StudentName(e.fileName);
    if !e.readable then p.(crashed := true)
    else
      var answer := RequestJsonSafe(DetectUrl, e.detect);
      match DetectedToken(answer)
      case Raised => p.(crashed := true)
      case Value(Some(token)) =>
        var (db1, lines) := SaveFace(p.db, e, name, token);
        Progress(db1, Register(p.tokens, token, name), p.log + lines, false)
      case Value(None) =>
        match DetectFailure(answer.fields)
        case Raised => p.(crashed := true)
        case Value(reason) => p.(log := p.log + [DetectFailed(name, reason)])
  }

  /** The loop `for foto in arquivos`, stopping at the first escaping exception. */
  function Run(p: Progress, es: seq<Entry>): (r: Progress)
    ensures p.crashed ==> r == p
    ensures |r.log| >= |p.log| && r.log[..|p.log|] == p.log
    decreases |es|
  {
    if |es| == 0 || p.crashed then p else Run(Step(p, es[0]), es[1..])
  }

  /** `cadastrar_alunos()`. `tokenFile` is the map on disk, `folder` the
      listing of `alunos` (None when the folder is missing), `getX`/`createX`
      the provisioning requests. */
  function Enroll(tokenFile: Option<TokenMap>, tokens: TokenMap, folder: Option<seq<Entry>>, db: Db,
                  getX: Exchange, createX: Exchange): (r: Outcome)
    ensures r.db.presences == db.presences
    ensures folder.None? ==> r == Outcome(db, None, FolderMissing)
  {
    var loaded := Load(tokens, tokenFile);
    match folder
    case None => Outcome(db, None, FolderMissing)
    case Some(listing) =>
      var photos := VisibleEntries(listing);
      if photos == [] then Outcome(db, None, NoPhotos)
      else if EnsureExists(getX, createX).end.Crashed? then Outcome(db, None, InternalError)
      else
        var p := Run(Progress(db, loaded, [], false), photos);
        RunKeepsPresences(Progress(db, loaded, [], false), photos);
        if p.crashed then Outcome(p.db, None, InternalError)
        else Outcome(p.db, Persist(p.tokens), Done(p.log))
  }

  // ---------------------------------------------------------------------------
  // Properties

  /** Enrollment never touches the presence table. */
  lemma {:induction false} RunKeepsPresences(p: Progress, es: seq<Entry>)
    ensures Run(p, es).db.presences == p.db.presences
    decreases |es|
  {
    if |es| > 0 && !p.crashed {
      StepKeepsPresences(p, es[0]);
      RunKeepsPresences(Step(p, es[0]), es[1..]);
    }
  }

  lemma StepKeepsPresences(p: Progress, e: Entry)
    requires !p.crashed
    ensures Step(p, e).db.presences == p.db.presences
  {
    match DetectedToken(RequestJsonSafe(DetectUrl, e.detect)) {
      case Value(Some(token)) =>
        SaveFaceKeepsPresences(p.db, e, StudentName(e.fileName), token);
      case _ =>
    }
  }

  lemma SaveFaceKeepsPresences(db: Db, e: Entry, name: string, token: string)
    ensures SaveFace(db, e, name, token).0.presences == db.presences
  {
  }

  /** Dotfiles are skipped: the route behaves as if they were not in the folder. */
  lemma DotfilesIgnored(tokenFile: Option<TokenMap>, tokens: TokenMap, listing: seq<Entry>, db: Db,
                        getX: Exchange, createX: Exchange)
    ensures Enroll(tokenFile, tokens, Some(listing), db, getX, createX)
         == Enroll(tokenFile, tokens, Some(VisibleEntries(listing)), db, getX, createX)
  {
    VisibleIdempotent(listing);
  }

  lemma {:induction false} VisibleIdempotent(es: seq<Entry>)
    ensures VisibleEntries(VisibleEntries(es)) == VisibleEntries(es)
  {
    if |es| > 0 {
      VisibleIdempotent(es[1..]);
      if Visible(es[0].fileName) {
        assert VisibleEntries(es)[1..] == VisibleEntries(es[1..]);
      }
    }
  }

  /** A student row is inserted only for a name and a token no row had, and the
      new row is appended with the next id; nothing else in the table changes. */
  lemma SaveFaceInsertsOnlyNew(db: Db, e: Entry, name: string, token: string)
    ensures var (d, _) := SaveFace(db, e, name, token);
      d.students == db.students ||
        (&& !AlreadyThere(db.students, name, token)
         && d.students == db.students + [Student(db.nextStudentId, name, token, None, None)])
  {
  }

  /** The insert is accepted exactly when the name and the token fit their
      columns and no row holds the token (`UNIQUE`). */
  lemma InsertStudentSucceedsIff(db: Db, name: string, token: string)
    ensures InsertStudent(db, name, token).Some? <==>
      |name| <= NameMax && |token| <= TokenMax
      && forall k :: 0 <= k < |db.students| ==> db.students[k].faceToken != token
  {
  }

  /** On a working connection, a face whose name and token no row has, and
      which fits the columns, is enrolled: one row with the next id is
      appended and the log says so first. */
  lemma SaveFaceEnrollsNew(db: Db, e: Entry, name: string, token: string)
    requires e.db.Healthy? && !AlreadyThere(db.students, name, token)
    requires |name| <= NameMax && |token| <= TokenMax
    ensures var (d, lines) := SaveFace(db, e, name, token);
      && d.students == db.students + [Student(db.nextStudentId, name, token, None, None)]
      && d.nextStudentId == db.nextStudentId + 1
      && |lines| == 2 && lines[0] == Enrolled(name)
  {
  }

  /** On a working connection, a face whose name or token a row already has
      adds no row, and the log says it is already enrolled. */
  lemma SaveFaceKeepsExisting(db: Db, e: Entry, name: string, token: string)
    requires e.db.Healthy? && AlreadyThere(db.students, name, token)
    ensures var (d, lines) := SaveFace(db, e, name, token);
      d == db && |lines| == 2 && lines[0] == AlreadyEnrolled(name)
  {
  }

  /** A photo whose detected face is new is enrolled under the file's name,
      and the map gets its token. */
  lemma StepEnrollsNew(p: Progress, e: Entry, token: string)
    requires !p.crashed && Detects(e, token) && e.db.Healthy?
    requires !AlreadyThere(p.db.students, StudentName(e.fileName), token)
    requires |StudentName(e.fileName)| <= NameMax && |token| <= TokenMax
    ensures var q := Step(p, e);
      && !q.crashed
      && q.db.students == p.db.students + [Student(p.db.nextStudentId, StudentName(e.fileName), token, None, None)]
      && token in q.tokens && q.tokens[token] == StudentName(e.fileName)
  {
    SaveFaceEnrollsNew(p.db, e, StudentName(e.fileName), token);
  }

  /** `after` extends `before` with rows each of which matched no earlier row by
      name or by token when it was inserted. */
  predicate FreshAppend(before: seq<Student>, after: seq<Student>)
  {
    && |before| <= |after| && after[..|before|] == before
    && forall k :: |before| <= k < |after| ==> !AlreadyThere(after[..k], after[k].name, after[k].faceToken)
  }

  lemma FreshAppendTransitive(a: seq<Student>, b: seq<Student>, c: seq<Student>)
    requires FreshAppend(a, b) && FreshAppend(b, c)
    ensures FreshAppend(a, c)
  {
    assert c[..|a|] == c[..|b|][..|a|];
    forall k | |a| <= k < |b| ensures !AlreadyThere(c[..k], c[k].name, c[k].faceToken) {
      assert c[..k] == b[..k] && c[k] == b[k];
    }
  }

  /** Over a whole run, the student table only grows, and every row the run
      adds shares neither its name nor its token with any row before it. */
  lemma {:induction false} RunAppendsFresh(p: Progress, es: seq<Entry>)
    ensures FreshAppend(p.db.students, Run(p, es).db.students)
    decreases |es|
  {
    if |es| > 0 && !p.crashed {
      var e := es[0];
      var q := Step(p, e);
      match DetectedToken(RequestJsonSafe(DetectUrl, e.detect)) {
        case Value(Some(token)) =>
          SaveFaceInsertsOnlyNew(p.db, e, StudentName(e.fileName), token);
          var t := p.db.students + [Student(p.db.nextStudentId, StudentName(e.fileName), token, None, None)];
          assert t[..|p.db.students|] == p.db.students;
        case _ =>
      }
      assert FreshAppend(p.db.students, q.db.students);
      RunAppendsFresh(q, es[1..]);
      FreshAppendTransitive(p.db.students, q.db.students, Run(q, es[1..]).db.students);
    } else {
      assert Run(p, es).db.students[..|p.db.students|] == p.db.students;
    }
  }

  /** Enrollment keeps every schema constraint of the student table. */
  lemma SaveFacePreservesValid(db: Db, e: Entry, name: string, token: string)
    requires Valid(db)
    ensures Valid(SaveFace(db, e, name, token).0)
  {
    if e.db.Healthy? && !AlreadyThere(db.students, name, token) {
      InsertStudentKeepsValid(db, name, token);
    }
  }

  /** An accepted insert gets a fresh id and a token no row has, and fits the
      column widths, so the table stays valid. */
  lemma InsertStudentKeepsValid(db: Db, name: string, token: string)
    requires Valid(db)
    ensures InsertStudent(db, name, token).Some? ==> Valid(InsertStudent(db, name, token).value)
  {
    if InsertStudent(db, name, token).Some? {
      var d := InsertStudent(db, name, token).value;
      assert forall k :: 0 <= k < |db.students| ==> d.students[k] == db.students[k];
      forall i | 0 <= i < |d.presences| ensures HasStudent(d.students, d.presences[i].studentId) {
        var k :| 0 <= k < |db.students| && db.students[k].id == db.presences[i].studentId;
        assert d.students[k] == db.students[k];
      }
    }
  }

  lemma {:induction false} RunPreservesValid(p: Progress, es: seq<Entry>)
    requires Valid(p.db)
    ensures Valid(Run(p, es).db)
    decreases |es|
  {
    if |es| > 0 && !p.crashed {
      var e := es[0];
      match DetectedToken(RequestJsonSafe(DetectUrl, e.detect)) {
        case Value(Some(token)) =>
          SaveFacePreservesValid(p.db, e, StudentName(e.fileName), token);
        case _ =>
      }
      RunPreservesValid(Step(p, e), es[1..]);
    }
  }

  /** The token of a file whose face was detected. */
  predicate Detects(e: Entry, token: string)
  {
    e.readable && DetectedToken(RequestJsonSafe(DetectUrl, e.detect)) == Value(Some(token))
  }

  /** The photo at index `i` is the last one whose face has this token. */
  predicate LastDetector(es: seq<Entry>, token: string, i: int)
  {
    0 <= i < |es| && Detects(es[i], token) && forall j :: i < j < |es| ==> !Detects(es[j], token)
  }

  /** No photo detected a face with this token. */
  predicate NoDetector(es: seq<Entry>, token: string)
  {
    forall i :: 0 <= i < |es| ==> !Detects(es[i], token)
  }

  /** A token no photo detected keeps its previous entry (or stays absent). */
  lemma {:induction false} UndetectedTokenKept(p: Progress, es: seq<Entry>, token: string)
    requires NoDetector(es, token)
    ensures var r := Run(p, es);
      (token in r.tokens <==> token in p.tokens) && (token in p.tokens ==> r.tokens[token] == p.tokens[token])
    decreases |es|
  {
    if |es| > 0 && !p.crashed {
      StepKeepsToken(p, es[0], token);
      NoDetectorTail(es, token);
      UndetectedTokenKept(Step(p, es[0]), es[1..], token);
    }
  }

  /** A photo that did not detect the token leaves its entry alone. */
  lemma StepKeepsToken(p: Progress, e: Entry, token: string)
    requires !p.crashed && !Detects(e, token)
    ensures var q := Step(p, e);
      (token in q.tokens <==> token in p.tokens) && (token in p.tokens ==> q.tokens[token] == p.tokens[token])
  {
  }

  /** A photo that detected the token maps it to the file's name, unless the
      loop stopped there. */
  lemma StepRegistersToken(p: Progress, e: Entry, token: string)
    requires !p.crashed && Detects(e, token)
    ensures var q := Step(p, e); !q.crashed ==> token in q.tokens && q.tokens[token] == StudentName(e.fileName)
  {
  }

  /** A photo `open` cannot read raises out of the loop before any request is
      made: nothing is logged and the state is otherwise unchanged. */
  lemma UnreadablePhotoCrashes(p: Progress, e: Entry)
    requires !p.crashed && !e.readable
    ensures Step(p, e) == p.(crashed := true)
  {
  }

  /** One unreadable photo anywhere in the list stops the loop. */
  lemma {:induction false} RunCrashesOnUnreadable(p: Progress, es: seq<Entry>, i: nat)
    requires i < |es| && !es[i].readable
    ensures Run(p, es).crashed
    decreases |es|
  {
    if !p.crashed {
      if i == 0 {
        UnreadablePhotoCrashes(p, es[0]);
        assert Run(p, es) == Run(p.(crashed := true), es[1..]);
      } else {
        assert es[1..][i - 1] == es[i];
        RunCrashesOnUnreadable(Step(p, es[0]), es[1..], i - 1);
      }
    }
  }

  /** Because the `open` is outside every `try`, an unreadable visible photo
      turns the route into a 500 and the token map is never written, although
      the rows of earlier photos stay committed. */
  lemma UnreadablePhotoLosesMap(tokenFile: Option<TokenMap>, tokens: TokenMap, listing: seq<Entry>, db: Db,
                                getX: Exchange, createX: Exchange, i: nat)
    requires i < |VisibleEntries(listing)| && !VisibleEntries(listing)[i].readable
    ensures var r := Enroll(tokenFile, tokens, Some(listing), db, getX, createX);
      r.saved.None? && r.reply == InternalError
  {
    var photos := VisibleEntries(listing);
    if !EnsureExists(getX, createX).end.Crashed? {
      RunCrashesOnUnreadable(Progress(db, Load(tokens, tokenFile), [], false), photos, i);
    }
  }

  lemma NoDetectorTail(es: seq<Entry>, token: string)
    requires |es| > 0 && NoDetector(es, token)
    ensures NoDetector(es[1..], token)
  {
    forall i | 0 <= i < |es[1..]| ensures !Detects(es[1..][i], token) {
      assert es[1..][i] == es[i + 1];
    }
  }

  /** The last detector of the rest is the last detector one position on;
      after the last detector, nothing detects the token. */
  lemma LastDetectorTail(es: seq<Entry>, token: string, i: int)
    requires LastDetector(es, token, i)
    ensures i > 0 ==> LastDetector(es[1..], token, i - 1)
    ensures i == 0 ==> NoDetector(es[1..], token)
  {
    forall j | 0 <= j < |es[1..]| && i - 1 < j ensures !Detects(es[1..][j], token) {
      assert es[1..][j] == es[j + 1];
    }
    if i > 0 {
      assert es[1..][i - 1] == es[i];
    }
  }

  /** A detected face always maps its token to the file's name, overwriting any
      earlier name: after a run without an escaping exception, a token maps to
      the name of the last photo that detected it. */
  lemma {:induction false} LastDetectionWins(p: Progress, es: seq<Entry>, token: string, i: int)
    requires !Run(p, es).crashed
    requires LastDetector(es, token, i)
    ensures token in Run(p, es).tokens && Run(p, es).tokens[token] == StudentName(es[i].fileName)
    decreases |es|
  {
    assert !p.crashed;
    var q := Step(p, es[0]);
    assert Run(p, es) == Run(q, es[1..]);
    LastDetectorTail(es, token, i);
    if i > 0 {
      LastDetectionWins(q, es[1..], token, i - 1);
    } else {
      RunNotCrashedStep(q, es[1..]);
      StepRegistersToken(p, es[0], token);
      UndetectedTokenKept(q, es[1..], token);
    }
  }

  /** A run that ends without an escaping exception never crashed on the way. */
  lemma RunNotCrashedStep(p: Progress, es: seq<Entry>)
    requires !Run(p, es).crashed
    ensures !p.crashed
  {
  }
}

=== FILE: faceset.dfy ===
/** `ensure_faceset_exists`: ask the matching service for the collection's
    details and, when the answer is an error of the "not found" kind, ask it to
    create the collection. */
module FaceSet {
  import opened Wrappers
  import opened Text
  import opened PyJson
  import opened Http

  const NotFoundMarker: string := "FACESET_NOT_FOUND"
  const ExistMarker: string := "FACESET_EXIST"
  const BadRequestPrefix: string := "HTTP 400"

  /** How the call ends: it returns (whether or not it created anything), it
      returns after logging the create call's error, or a Python exception
      escapes it. */
  datatype ProvisionEnd = Returned | CreateErrorLogged | Crashed

  /** The requests issued, in order, and how the call ended. */
  datatype Provision = Provision(calls: seq<string>, end: ProvisionEnd)

  /** `(get_resp.get("details") or {}).get("error_message", "")`. */
  function Reason(m: map<string, Json>): (r: Eval<Json>)
    ensures r.Raised? <==> "details" in m && Truthy(m["details"]) && !m["details"].Obj?
    ensures HasMessage(m) ==> r == Value(m["details"].fields["error_message"])
    ensures r.Value? && !HasMessage(m) ==> r == Value(Str(""))
  {
    match NestedGet(m, "details", "error_message")
    case Raised => Raised
    case Value(found) => Value(found.GetOr(Str("")))
  }

  /** The "details" entry is a dict carrying "error_message". */
  predicate HasMessage(m: map<string, Json>)
  {
    "details" in m && m["details"].Obj? && "error_message" in m["details"].fields
  }

  /** The create condition on a getdetail answer that carries an "error" key:
      the reason mentions FACESET_NOT_FOUND or FACESET_EXIST, or else the error
      text starts with "HTTP 400". Evaluated left to right with short-circuit,
      as Python does. */
  function ShouldCreate(m: map<string, Json>): (r: Eval<bool>)
    requires "error" in m
    ensures r == Value(true) ==>
      && Reason(m).Value?
      && (|| In(NotFoundMarker, Reason(m).value) == Value(true)
          || In(ExistMarker, Reason(m).value) == Value(true)
          || (m["error"].Str? && StartsWith(m["error"].s, BadRequestPrefix)))
    ensures r == Value(false) ==>
      && Reason(m).Value?
      && In(NotFoundMarker, Reason(m).value) == Value(false)
      && In(ExistMarker, Reason(m).value) == Value(false)
      && m["error"].Str? && !StartsWith(m["error"].s, BadRequestPrefix)
  {
    match Reason(m)
    case Raised => Raised
    case Value(reason) =>
      match In(NotFoundMarker, reason)
      case Raised => Raised
      case Value(true) => Value(true)
      case Value(false) =>
        match In(ExistMarker, reason)
        case Raised => Raised
        case Value(true) => Value(true)
        case Value(false) =>
          match m["error"]
          case Str(e) => Value(StartsWith(e, BadRequestPrefix))
          case _ => Raised
  }

  /** `ensure_faceset_exists()` given what the getdetail and create requests yield. */
  function EnsureExists(getX: Exchange, createX: Exchange): (p: Provision)
    ensures p.calls == [GetDetailUrl] || p.calls == [GetDetailUrl, CreateUrl]
    ensures p.end.CreateErrorLogged? ==> |p.calls| == 2
  {
    var g := RequestJsonSafe(GetDetailUrl, getX);
    if !g.Obj? || "error" !in g.fields then Provision([GetDetailUrl], Returned)
    else
      match ShouldCreate(g.fields)
      case Raised => Provision([GetDetailUrl], Crashed)
      case Value(false) => Provision([GetDetailUrl], Returned)
      case Value(true) =>
        var c := RequestJsonSafe(CreateUrl, createX);
        match In("error", c)
        case Raised => Provision([GetDetailUrl, CreateUrl], Crashed)
        case Value(true) => Provision([GetDetailUrl, CreateUrl], CreateErrorLogged)
        case Value(false) => Provision([GetDetailUrl, CreateUrl], Returned)
  }

  /** The create call is issued exactly when the getdetail answer is a dict
      carrying "error" and the create condition holds for it. */
  lemma CreatesIff(getX: Exchange, createX: Exchange)
    ensures |EnsureExists(getX, createX).calls| == 2 <==>
      var g := RequestJsonSafe(GetDetailUrl, getX);
      g.Obj? && "error" in g.fields && ShouldCreate(g.fields) == Value(true)
  {
  }

  /** For a textual reason and error, the create condition is the plain
      disjunction: either marker occurs in the reason, or the error text
      starts with "HTTP 400". */
  lemma ShouldCreateOnText(m: map<string, Json>, reason: string)
    requires "error" in m && m["error"].Str? && Reason(m) == Value(Str(reason))
    ensures ShouldCreate(m) == Value(
      Contains(reason, NotFoundMarker) || Contains(reason, ExistMarker) || StartsWith(m["error"].s, BadRequestPrefix))
  {
    ContainsIff(reason, NotFoundMarker);
    ContainsIff(reason, ExistMarker);
  }

  /** A create call is issued only on one of the three markers: FACESET_NOT_FOUND
      or FACESET_EXIST in the reason, or an error text starting "HTTP 400". */
  lemma CreateOnlyOnMarkers(getX: Exchange, createX: Exchange)
    requires Created(EnsureExists(getX, createX))
    ensures var g := RequestJsonSafe(GetDetailUrl, getX);
      && g.Obj? && "error" in g.fields && Reason(g.fields).Value?
      && (|| In(NotFoundMarker, Reason(g.fields).value) == Value(true)
          || In(ExistMarker, Reason(g.fields).value) == Value(true)
          || (g.fields["error"].Str? && StartsWith(g.fields["error"].s, BadRequestPrefix)))
  {
  }

  /** A create call was issued. */
  predicate Created(p: Provision)
  {
    CreateUrl in p.calls
  }

  /** At most one create call, always after the one getdetail call. */
  lemma AtMostOneCreate(getX: Exchange, createX: Exchange)
    ensures var p := EnsureExists(getX, createX);
      && p.calls[0] == GetDetailUrl
      && forall i, j :: 0 <= i < j < |p.calls| ==> p.calls[i] != p.calls[j]
  {
    assert GetDetailUrl != CreateUrl by {
      assert GetDetailUrl[|ServiceBase| + 8] == 'g';
      assert CreateUrl[|ServiceBase| + 8] == 'c';
    }
  }

  /** A transport failure of getdetail never leads to a create call: its error
      text is not an HTTP status and its message sits under "detalhes", not
      under "details". */
  lemma TransportFailureNeverCreates(message: string, createX: Exchange)
    ensures EnsureExists(TransportError(message), createX) == Provision([GetDetailUrl], Returned)
  {
    var g := RequestJsonSafe(GetDetailUrl, TransportError(message));
    assert Reason(g.fields) == Value(Str(""));
    assert TransportFailure[5] != BadRequestPrefix[5];
  }

  /** A collection that exists (getdetail answers 200 with a dict without an
      "error" key) is never created again: a second provisioning after a
      successful first one issues only the getdetail call. */
  lemma ExistingNeverCreated(fields: map<string, Json>, text: string, createX: Exchange)
    requires "error" !in fields
    ensures EnsureExists(Response(200, Some(Obj(fields)), text), createX) == Provision([GetDetailUrl], Returned)
  {
  }

  /** An answer with status 400 leads to a create call unless its body is a
      truthy non-dict (an AttributeError) or an "error_message" that is not a
      string. */
  lemma BadRequestCreates(json: Option<Json>, text: string, createX: Exchange)
    requires json.None? || (json.value.Obj? &&
      ("error_message" !in json.value.fields || json.value.fields["error_message"].Str?))
    ensures Created(EnsureExists(Response(400, json, text), createX))
  {
    Http400Prefix(400);
  }

  /** An error answer whose details say FACESET_NOT_FOUND leads to a create
      call, whatever its status. */
  lemma NotFoundCreates(status: nat, message: string, others: map<string, Json>, text: string, createX: Exchange)
    requires status != 200
    requires Contains(message, NotFoundMarker)
    ensures Created(EnsureExists(Response(status, Some(Obj(others["error_message" := Str(message)])), text), createX))
  {
  }

  /** An error answer whose details say FACESET_EXIST leads to a create call
      too, whatever its status. */
  lemma ExistCreates(status: nat, message: string, others: map<string, Json>, text: string, createX: Exchange)
    requires status != 200
    requires Contains(message, ExistMarker)
    ensures Created(EnsureExists(Response(status, Some(Obj(others["error_message" := Str(message)])), text), createX))
  {
    ContainsIff(message, ExistMarker);
  }

  /** Any other error status (a 5xx, a 404, ...) whose details name neither
      marker leaves the collection alone: getdetail is the only call. */
  lemma UnmarkedErrorNeverCreates(status: nat, json: Option<Json>, text: string, createX: Exchange)
    requires 100 <= status <= 999 && status != 200 && status != 400
    requires json.None? || (json.value.Obj? && ("error_message" !in json.value.fields ||
      (json.value.fields["error_message"].Str?
       && !Contains(json.value.fields["error_message"].s, NotFoundMarker)
       && !Contains(json.value.fields["error_message"].s, ExistMarker))))
    ensures EnsureExists(Response(status, json, text), createX) == Provision([GetDetailUrl], Returned)
  {
    Http400Prefix(status);
    var g := RequestJsonSafe(GetDetailUrl, Response(status, json, text));
    if json.Some? && "error_message" in json.value.fields {
      ShouldCreateOnText(g.fields, json.value.fields["error_message"].s);
    } else {
      assert Reason(g.fields) == Value(Str(""));
      ShouldCreateOnText(g.fields, "");
    }
  }

  /** An error from the create call is only logged: when the create answer is
      a dict, as every non-200 or failed exchange yields, the call returns
      normally, and it logs exactly when the answer carries "error". */
  lemma CreateErrorOnlyLogged(getX: Exchange, createX: Exchange)
    requires Created(EnsureExists(getX, createX))
    requires RequestJsonSafe(CreateUrl, createX).Obj?
    ensures var p := EnsureExists(getX, createX);
      && !p.end.Crashed?
      && (p.end.CreateErrorLogged? <==> "error" in RequestJsonSafe(CreateUrl, createX).fields)
  {
  }
}

=== FILE: guardian.dfy ===
/** `atualizar_email_responsavel`: an administrator sets the guardian address
    of one student. */
module Guardian {
  import opened Wrappers
  import opened Text
  import opened Store

  /** The flashed message the route ends with (it always redirects). */
  datatype Reply = InvalidEmail | ConnectionError | UpdateFailed | Updated

  /** The trimmed form value is accepted when it is non-empty and holds an '@'. */
  predicate Acceptable(email: string)
  {
    email != "" && '@' in email
  }

  /** `UPDATE alunos SET email_responsavel = %s WHERE id = %s`. */
  function SetEmail(students: seq<Student>, id: nat, email: string): (r: seq<Student>)
    ensures |r| == |students|
    ensures forall k :: 0 <= k < |r| ==>
      if students[k].id == id then r[k] == students[k].(email := Some(email)) else r[k] == students[k]
  {
    if |students| == 0 then []
    else
      var s := students[0];
      [if s.id == id then s.(email := Some(email)) else s] + SetEmail(students[1..], id, email)
  }

  /** The route for student `id`; `field` is the form field (None when absent). */
  function UpdateGuardianEmail(db: Db, env: DbEnv, id: nat, field: Option<string>): (r: (Db, Reply))
    ensures r.0.presences == db.presences && r.0.nextStudentId == db.nextStudentId
    ensures r.1 == Updated <==> env == Healthy && Acceptable(Strip(field.GetOr("")))
    ensures r.1 != Updated ==> r.0 == db
  {
    var email := Strip(field.GetOr(""));
    if !Acceptable(email) then (db, InvalidEmail)
    else
      match env
      case Unavailable => (db, ConnectionError)
      case Faulty => (db, UpdateFailed)
      case Healthy => (db.(students := SetEmail(db.students, id, email)), Updated)
  }

  /** An accepted update stores the trimmed address on the row with that id
      and on no other row; an id no row has still reports success and changes
      nothing. */
  lemma UpdateTouchesOneRow(db: Db, id: nat, field: string)
    requires Acceptable(Strip(field))
    ensures var (d, reply) := UpdateGuardianEmail(db, Healthy, id, Some(field));
      && reply == Updated
      && |d.students| == |db.students|
      && (forall k :: 0 <= k < |d.students| && db.students[k].id != id ==> d.students[k] == db.students[k])
      && (forall k :: 0 <= k < |d.students| && db.students[k].id == id ==>
            d.students[k] == db.students[k].(email := Some(Strip(field))))
      && ((forall k :: 0 <= k < |db.students| ==> db.students[k].id != id) ==> d == db)
  {
    var email := Strip(field);
    assert UpdateGuardianEmail(db, Healthy, id, Some(field)) == (db.(students := SetEmail(db.students, id, email)), Updated);
    if forall k :: 0 <= k < |db.students| ==> db.students[k].id != id {
      SetEmailAbsentId(db.students, id, email);
    }
  }

  /** No row has the id: the table is left as it was. */
  lemma SetEmailAbsentId(students: seq<Student>, id: nat, email: string)
    requires forall k :: 0 <= k < |students| ==> students[k].id != id
    ensures SetEmail(students, id, email) == students
  {
    var r := SetEmail(students, id, email);
    assert forall k :: 0 <= k < |r| ==> r[k] == students[k];
  }

  /** A stored address is non-empty, holds an '@', and has no surrounding
      whitespace: re-submitting it would store the same text. */
  lemma StoredAddressIsClean(db: Db, id: nat, field: string)
    requires Acceptable(Strip(field))
    ensures Strip(Strip(field)) == Strip(field)
    ensures var e := Strip(field); !IsSpace(e[0]) && !IsSpace(e[|e| - 1]) && '@' in e
  {
    StripIdempotent(field);
  }

  /** An update keeps the schema constraints: only the nullable email column changes. */
  lemma UpdatePreservesValid(db: Db, env: DbEnv, id: nat, field: Option<string>)
    requires Valid(db)
    ensures Valid(UpdateGuardianEmail(db, env, id, field).0)
  {
    var email := Strip(field.GetOr(""));
    if Acceptable(email) && env == Healthy {
      SetEmailKeepsValid(db, id, email);
    }
  }

  /** Changing one address keeps every id, name and token, so every schema
      constraint still holds. */
  lemma SetEmailKeepsValid(db: Db, id: nat, email: string)
    requires Valid(db)
    ensures Valid(db.(students := SetEmail(db.students, id, email)))
  {
    var d := db.(students := SetEmail(db.students, id, email));
    assert forall k :: 0 <= k < |d.students| ==>
      d.students[k].id == db.students[k].id
      && d.students[k].name == db.students[k].name
      && d.students[k].faceToken == db.students[k].faceToken;
    forall i | 0 <= i < |d.presences| ensures HasStudent(d.students, d.presences[i].studentId) {
      var k :| 0 <= k < |db.students| && db.students[k].id == db.presences[i].studentId;
      assert d.students[k].id == db.students[k].id;
    }
  }
}

=== FILE: http.dfy ===
/** `request_json_safe`: every HTTP exchange with the face-matching service is
    reduced to one JSON value, never an exception. */
module Http {
  import opened Wrappers
  import opened Text
  import opened PyJson

  const ServiceBase: string := "https://api-us.faceplusplus.com/facepp/v3/"
  const GetDetailUrl: string := ServiceBase + "faceset/getdetail"
  const CreateUrl: string := ServiceBase + "faceset/create"
  const DetectUrl: string := ServiceBase + "detect"
  const AddFaceUrl: string := ServiceBase + "faceset/addface"
  const SearchUrl: string := ServiceBase + "search"

  /** The error text of a transport failure. */
  const TransportFailure: string := "Falha de requisição"

  /** How many characters of a non-JSON body are kept. */
  const RawLimit: nat := 500

  /** What one request yields: a transport exception from `requests` (timeout,
      refused connection, ...) or a response with its status, its body decoded
      as JSON when it is JSON, and its text. */
  datatype Exchange =
    | TransportError(message: string)
    | Response(status: nat, json: Option<Json>, text: string)

  /** The body as decoded: the JSON value, or `{"raw": text[:500]}` when the body
      is not JSON. */
  function Body(json: Option<Json>, text: string): (b: Json)
    ensures json.Some? ==> b == json.value
    ensures json.None? ==> b.Obj? && b.fields.Keys == {"raw"}
  {
    match json
    case Some(j) => j
    case None => Obj(map["raw" := Str(if |text| <= RawLimit then text else text[..RawLimit])])
  }

  /** `request_json_safe(method, url, ...)`. A 200 response yields its body
      unchanged; any other status yields a dict whose "error" is `HTTP <code>`
      with the body under "details"; a transport exception yields a dict whose
      "error" is "Falha de requisição" with the message under "detalhes" and no
      "details" key. */
  function RequestJsonSafe(url: string, x: Exchange): (r: Json)
    ensures x.Response? && x.status == 200 ==> r == Body(x.json, x.text)
    ensures x.Response? && x.status != 200 ==>
      && r.Obj? && r.fields.Keys == {"error", "endpoint", "details"}
      && r.fields["error"] == Str("HTTP " + NatToString(x.status))
      && r.fields["details"] == Body(x.json, x.text)
    ensures x.TransportError? ==>
      && r.Obj? && r.fields.Keys == {"error", "endpoint", "detalhes"}
      && r.fields["error"] == Str(TransportFailure)
    ensures !(x.Response? && x.status == 200) ==> r.Obj? && "error" in r.fields && r.fields["endpoint"] == Str(url)
  {
    match x
    case TransportError(msg) =>
      Obj(map["error" := Str(TransportFailure), "endpoint" := Str(url), "detalhes" := Str(msg)])
    case Response(status, json, text) =>
      var body := Body(json, text);
      if status != 200 then
        Obj(map["error" := Str("HTTP " + NatToString(status)), "endpoint" := Str(url), "details" := body])
      else body
  }

  /** Reads the status code back out of an `HTTP <code>` error text. */
  function ErrorStatus(error: string): Option<nat>
  {
    if |error| > 5 && error[..5] == "HTTP " && AllDigits(error[5..]) then Some(DigitsValue(error[5..]))
    else None
  }

  /** The status of a failed response can be recovered from the error text, and
      a transport failure is never mistaken for an HTTP status. */
  lemma ErrorCarriesStatus(url: string, x: Exchange)
    requires !(x.Response? && x.status == 200)
    ensures var r := RequestJsonSafe(url, x);
      r.fields["error"].Str? &&
      ErrorStatus(r.fields["error"].s) == (if x.Response? then Some(x.status) else None)
  {
    var r := RequestJsonSafe(url, x);
    if x.Response? {
      var e := "HTTP " + NatToString(x.status);
      assert e[5..] == NatToString(x.status);
      NatToStringRoundTrip(x.status);
    } else {
      assert TransportFailure[0] == 'F';
    }
  }

  /** For a three-digit status, the text `HTTP <code>` starts with `HTTP 400`
      exactly when the status is 400. */
  lemma Http400Prefix(status: nat)
    requires 100 <= status <= 999
    ensures StartsWith("HTTP " + NatToString(status), "HTTP 400") <==> status == 400
  {
    var d := NatToString(status);
    var e := "HTTP " + d;
    ThreeDigits(status);
    ThreeDigits(400);
    if StartsWith(e, "HTTP 400") {
      assert d == e[5..8] == "HTTP 400"[5..8];
      assert "HTTP 400"[5..8] == "400";
      assert NatToString(400) == "400" by {
        assert NatToString(4) == "4";
        assert NatToString(40) == "40";
      }
      NatToStringInjective(status, 400);
    }
    if status == 400 {
      assert NatToString(400) == "400" by {
        assert NatToString(4) == "4";
        assert NatToString(40) == "40";
      }
    }
  }
}

=== FILE: identity.dfy ===
/** The token-to-name map (`alunos_tokens`): loaded from its JSON file at the
    start of each scan or enrollment, consulted with a fallback name, and
    written back whole after an enrollment run. */
module Identity {
  import opened Wrappers

  type TokenMap = map<string, string>

  /** The name reported for a token the map does not know. */
  const Unknown: string := "Desconhecido"

  /** `carregar_tokens`: the map held before the call is discarded and replaced
      by the file's contents, or by the empty map when there is no file. */
  function Load(current: TokenMap, file: Option<TokenMap>): (m: TokenMap)
    ensures file.None? ==> m == map[]
    ensures file.Some? ==> m == file.value
  {
    match file
    case Some(stored) => stored
    case None => map[]
  }

  /** `salvar_tokens`: the whole map is written, replacing the file. */
  function Persist(m: TokenMap): (file: Option<TokenMap>)
    ensures file.Some?
  {
    Some(m)
  }

  /** `alunos_tokens.get(token, "Desconhecido")`. */
  function Resolve(m: TokenMap, token: string): (name: string)
    ensures token in m ==> name == m[token]
    ensures token !in m ==> name == Unknown
  {
    if token in m then m[token] else Unknown
  }

  /** `alunos_tokens[face_token] = nome`: the token now resolves to the name,
      overwriting any earlier name, and every other token resolves as before. */
  function Register(m: TokenMap, token: string, name: string): (r: TokenMap)
    ensures Resolve(r, token) == name
    ensures forall t :: t != token ==> Resolve(r, t) == Resolve(m, t)
    ensures r.Keys == m.Keys + {token}
  {
    m[token := name]
  }

  /** Loading what was persisted gives back the same map, whatever was held before. */
  lemma LoadAfterPersist(current: TokenMap, m: TokenMap)
    ensures Load(current, Persist(m)) == m
  {
  }
}

=== FILE: notifier.dfy ===
/** `send_absence_email` and the batch entry point of `email_ausentes`:
    one notice per absent student, each send isolated from the others. */
module Notifier {
  import opened Wrappers
  import opened Text
  import opened Calendar
  import opened Store
  import opened Absentees

  // ---------------------------------------------------------------------------
  // Templates

  /** A parsed `string.Template`: literal text and `${key}` placeholders. */
  datatype Piece = Lit(text: string) | Slot(key: string)
  type Template = seq<Piece>

  /** The built-in template used when no template file is present. It has no
      `${turno}` placeholder, so the shift never appears in the default body. */
  const DefaultTemplate: Template := [
    Lit("Olá,\n\nInformamos que "), Slot("aluno_nome"),
    Lit(" esteve ausente na escola no dia "), Slot("data"),
    Lit(".\n\nAtenciosamente,\nEquipe Escolar")]

  /** `tpl.substitute(...)`: None when a placeholder has no value (a KeyError). */
  function Substitute(t: Template, env: map<string, string>): (r: Option<string>)
    ensures r.Some? <==> forall k :: 0 <= k < |t| && t[k].Slot? ==> t[k].key in env
  {
    if |t| == 0 then Some("")
    else
      assert forall k :: 1 <= k < |t| ==> t[k] == t[1..][k - 1];
      var head := match t[0] case Lit(x) => Some(x) case Slot(k) => if k in env then Some(env[k]) else None;
      match head
      case None => None
      case Some(h) =>
        match Substitute(t[1..], env)
        case None => None
        case Some(rest) => Some(h + rest)
  }

  /** Substitution succeeds exactly when every placeholder has a value. */
  lemma {:induction false} SubstituteDefinedIff(t: Template, env: map<string, string>)
    ensures Substitute(t, env).Some? <==> forall k :: 0 <= k < |t| && t[k].Slot? ==> t[k].key in env
  {
    if |t| > 0 {
      SubstituteDefinedIff(t[1..], env);
      assert forall k :: 1 <= k < |t| ==> t[k] == t[1..][k - 1];
    }
  }

  /** A single piece renders as its literal, or as its placeholder's value. */
  lemma SubstitutePiece(x: string, key: string, env: map<string, string>)
    ensures Substitute([Lit(x)], env) == Some(x)
    ensures Substitute([Slot(key)], env) == if key in env then Some(env[key]) else None
  {
    assert [Lit(x)][1..] == [] && [Slot(key)][1..] == [];
    assert x + "" == x;
    if key in env {
      assert env[key] + "" == env[key];
    }
  }

  /** Substitution distributes over concatenation of templates: the rendering
      of `a + b` is the rendering of `a` followed by that of `b`, and it fails
      when either part fails. */
  lemma {:induction false} SubstituteAppend(a: Template, b: Template, env: map<string, string>)
    ensures Substitute(a + b, env) ==
      (if Substitute(a, env).Some? && Substitute(b, env).Some?
       then Some(Substitute(a, env).value + Substitute(b, env).value) else None)
  {
    if |a| == 0 {
      assert a + b == b;
      assert "" + Substitute(b, env).GetOr("") == Substitute(b, env).GetOr("");
    } else {
      assert (a + b)[0] == a[0];
      assert (a + b)[1..] == a[1..] + b;
      SubstituteAppend(a[1..], b, env);
      var h := match a[0] case Lit(x) => Some(x) case Slot(k) => if k in env then Some(env[k]) else None;
      if h.Some? && Substitute(a[1..], env).Some? && Substitute(b, env).Some? {
        var x, y, z := h.value, Substitute(a[1..], env).value, Substitute(b, env).value;
        assert x + (y + z) == (x + y) + z;
      }
    }
  }

  /** Python's `str(turno)`: a NULL shift is rendered as "None". */
  function TurnoText(turno: Option<string>): string
  {
    turno.GetOr("None")
  }

  function Bindings(name: string, date: string, turno: Option<string>): map<string, string>
  {
    map["aluno_nome" := name, "data" := date, "turno" := TurnoText(turno)]
  }

  /** The default body names the student and the date and says nothing else
      that depends on the row. */
  lemma DefaultBody(name: string, date: string, turno: Option<string>)
    ensures Substitute(DefaultTemplate, Bindings(name, date, turno)) == Some(
      "Olá,\n\nInformamos que " + name + " esteve ausente na escola no dia " + date
      + ".\n\nAtenciosamente,\nEquipe Escolar")
  {
    var env := Bindings(name, date, turno);
    var t := DefaultTemplate;
    var l0, l2, l4 := "Olá,\n\nInformamos que ", " esteve ausente na escola no dia ", ".\n\nAtenciosamente,\nEquipe Escolar";
    assert env["aluno_nome"] == name && env["data"] == date;
    assert t[4..][1..] == [] && t[3..][1..] == t[4..] && t[2..][1..] == t[3..] && t[1..][1..] == t[2..];
    assert l4 + "" == l4;
    SubstituteStep(t[4..], env, l4, "");
    SubstituteStep(t[3..], env, date, l4);
    SubstituteStep(t[2..], env, l2, date + l4);
    SubstituteStep(t[1..], env, name, l2 + (date + l4));
    SubstituteStep(t, env, l0, name + (l2 + (date + l4)));
    assert l0 + (name + (l2 + (date + l4))) == l0 + name + l2 + date + l4;
  }

  /** One piece more: its text (the literal, or the placeholder's value) goes
      in front of the rest. */
  lemma SubstituteStep(t: Template, env: map<string, string>, h: string, rest: string)
    requires |t| > 0 && Substitute(t[1..], env) == Some(rest)
    requires if t[0].Lit? then t[0].text == h else t[0].key in env && env[t[0].key] == h
    ensures Substitute(t, env) == Some(h + rest)
  {
  }

  // ---------------------------------------------------------------------------
  // One notice

  /** `GMAIL_USER` and `GMAIL_APP_PASSWORD`, each `os.getenv(..., "").strip()`. */
  datatype Credentials = Credentials(user: string, password: string)

  function CredentialsFromEnv(user: Option<string>, password: Option<string>): Credentials
  {
    Credentials(Strip(user.GetOr("")), Strip(password.GetOr("")))
  }

  predicate HasCredentials(c: Credentials)
  {
    c.user != "" && c.password != ""
  }

  /** The message handed to the mail server. */
  datatype Email = Email(sender: string, to: string, subject: string, body: string)

  /** `f"Aviso de ausência - {aluno_nome} ({turno})"`. */
  function Subject(name: string, turno: Option<string>): string
  {
    "Aviso de ausência - " + name + " (" + TurnoText(turno) + ")"
  }

  /** Why a call raised. */
  datatype Cause = MissingCredentials | TemplateError | HeaderError | SmtpError

  /** What one call of `send_absence_email` does: returns without sending
      (invalid address), returns after a send, or raises. */
  datatype SendResult = InvalidAddress | Delivered(email: Email) | Raised(cause: Cause)

  /** The three header values `EmailMessage` accepts: its default policy
      raises ValueError when `splitlines` breaks a value into more than one
      line. */
  predicate HeadersFit(user: string, to: string, subject: string)
  {
    SingleLine(user) && SingleLine(to) && SingleLine(subject)
  }

  /** `not to_email or "@" not in to_email`. */
  predicate InvalidAddressText(to: string)
  {
    to == "" || '@' !in to
  }

  /** `send_absence_email(to_email, aluno_nome, turno, run_date)`. `template` is
      the parsed template file (None when the file is absent) and `smtpOk`
      whether the SMTP login and submission succeed. */
  function Send(to: string, name: string, turno: Option<string>, date: Date,
                creds: Credentials, template: Option<Template>, smtpOk: bool): (r: SendResult)
    requires ValidDate(date)
    ensures r == InvalidAddress <==> InvalidAddressText(to)
    ensures !InvalidAddressText(to) && !HasCredentials(creds) ==> r == Raised(MissingCredentials)
    ensures r == Raised(HeaderError) <==>
      && !InvalidAddressText(to) && HasCredentials(creds)
      && Substitute(template.GetOr(DefaultTemplate), Bindings(name, FormatDate(date), turno)).Some?
      && !HeadersFit(creds.user, to, Subject(name, turno))
    ensures r.Delivered? ==>
      && HasCredentials(creds) && smtpOk && HeadersFit(r.email.sender, r.email.to, r.email.subject)
      && r.email.sender == creds.user && r.email.to == to
      && r.email.subject == Subject(name, turno)
      && Some(r.email.body) == Substitute(template.GetOr(DefaultTemplate), Bindings(name, FormatDate(date), turno))
  {
    if InvalidAddressText(to) then InvalidAddress
    else if !HasCredentials(creds) then Raised(MissingCredentials)
    else
      match Substitute(template.GetOr(DefaultTemplate), Bindings(name, FormatDate(date), turno))
      case None => Raised(TemplateError)
      case Some(body) =>
        if !HeadersFit(creds.user, to, Subject(name, turno)) then Raised(HeaderError)
        else if !smtpOk then Raised(SmtpError)
        else Delivered(Email(creds.user, to, Subject(name, turno), body))
  }

  /** With no template file, working mail and header values on one line
      each, a valid address receives the default body with the date written
      `dd/mm/yyyy`, which reads back as the run date. */
  lemma DefaultNotice(to: string, name: string, turno: Option<string>, date: Date, creds: Credentials)
    requires ValidDate(date) && !InvalidAddressText(to) && HasCredentials(creds)
    requires HeadersFit(creds.user, to, Subject(name, turno))
    ensures var r := Send(to, name, turno, date, creds, None, true);
      && r.Delivered?
      && r.email.subject == "Aviso de ausência - " + name + " (" + TurnoText(turno) + ")"
      && r.email.body == "Olá,\n\nInformamos que " + name + " esteve ausente na escola no dia "
           + FormatDate(date) + ".\n\nAtenciosamente,\nEquipe Escolar"
      && ParseDate(FormatDate(date)) == Some(date)
  {
    DefaultBody(name, FormatDate(date), turno);
    FormatDateRoundTrip(date);
  }

  /** An address with a line break inside it, such as an injected "Bcc:"
      line, makes the `To` assignment raise: nothing is sent. */
  lemma InjectedHeaderRefused(name: string, turno: Option<string>, date: Date, creds: Credentials, smtpOk: bool)
    requires ValidDate(date) && HasCredentials(creds)
    ensures Send("pai@x.com\nBcc: y@z.com", name, turno, date, creds, None, smtpOk) == Raised(HeaderError)
  {
    var to := "pai@x.com\nBcc: y@z.com";
    assert |to| == 22 && to[9] == '\n';
    BreakInside(to, 9);
    DefaultBody(name, FormatDate(date), turno);
  }

  // ---------------------------------------------------------------------------
  // The batch

  /** What the batch depends on besides the store: credentials, the template
      file, the pause after each counted call (`EMAIL_DELAY_SECONDS`), and for
      the i-th absent row whether its SMTP exchange succeeds. */
  datatype Mailer = Mailer(creds: Credentials, template: Option<Template>, delay: real, smtp: nat -> bool)

  /** The headers of the notice for one absent row fit on one line each. */
  predicate RowHeadersFit(creds: Credentials, row: AbsentRow)
  {
    HeadersFit(creds.user, row.email, Subject(row.name, row.turno))
  }

  /** The log of the batch. */
  datatype Event =
    | WouldSend(row: AbsentRow)              // "[DRY-RUN] Enviaria para ..."
    | Sent(email: Email)                     // "[OK] Enviado ..." after a send
    | SkippedInvalid(name: string)           // "[AVISO] ... inválido/ausente", then "[OK] Enviado"
    | Failed(name: string, cause: Cause)     // "[ERRO] ..."
    | Pause(seconds: real)                   // time.sleep(DELAY_SECONDS)
    | SleepFailed(name: string)              // "[ERRO] ..." when time.sleep refuses the delay

  /** The largest `_PyTime_t`: `time.sleep` converts its argument to a
      signed 64-bit count of nanoseconds (rounding up) and raises
      OverflowError beyond it. */
  const SleepMaxNanos: int := 0x7FFF_FFFF_FFFF_FFFF

  /** What follows the "[OK]" line of a counted call: the pause, or, for a
      negative `EMAIL_DELAY_SECONDS` (ValueError) or one past the nanosecond
      range (OverflowError), the error `time.sleep` raises, which the loop
      logs after the row was already counted. */
  function AfterCount(name: string, delay: real): (e: Event)
    ensures e.Pause? <==> 0.0 <= delay && delay * 1_000_000_000.0 <= SleepMaxNanos as real
    ensures e.Pause? ==> e.seconds == delay
    ensures e.SleepFailed? ==> e.name == name
  {
    if delay < 0.0 || delay * 1_000_000_000.0 > SleepMaxNanos as real then SleepFailed(name) else Pause(delay)
  }

  /** The accepted delays reach beyond 292 years and stop short of 293. */
  lemma SleepRange(name: string, delay: real)
    ensures 0.0 <= delay <= 9_223_372_036.0 ==> AfterCount(name, delay) == Pause(delay)
    ensures delay < 0.0 || delay >= 9_223_372_037.0 ==> AfterCount(name, delay) == SleepFailed(name)
  {
  }

  datatype RunResult = Aborted | Completed(count: nat, trace: seq<Event>)

  /** The call for the i-th absent row. */
  function CallFor(rows: seq<AbsentRow>, i: nat, date: Date, mailer: Mailer): (r: SendResult)
    requires i < |rows| && ValidDate(date)
    ensures r == InvalidAddress <==> InvalidAddressText(rows[i].email)
    ensures r.Delivered? ==> r.email.to == rows[i].email && mailer.smtp(i)
  {
    Send(rows[i].email, rows[i].name, rows[i].turno, date, mailer.creds, mailer.template, mailer.smtp(i))
  }

  /** The log lines of the i-th row. */
  function EventsFor(rows: seq<AbsentRow>, i: nat, date: Date, dryRun: bool, mailer: Mailer): (e: seq<Event>)
    requires i < |rows| && ValidDate(date)
    ensures dryRun ==> e == [WouldSend(rows[i])]
    ensures |e| == 2 <==> !dryRun && !CallFor(rows, i, date, mailer).Raised?
    ensures |e| != 2 ==> |e| == 1
    ensures |e| == 2 ==> e[1] == AfterCount(rows[i].name, mailer.delay)
  {
    if dryRun then [WouldSend(rows[i])]
    else
      match CallFor(rows, i, date, mailer)
      case InvalidAddress => [SkippedInvalid(rows[i].name), AfterCount(rows[i].name, mailer.delay)]
      case Delivered(m) => [Sent(m), AfterCount(rows[i].name, mailer.delay)]
      case Raised(c) => [Failed(rows[i].name, c)]
  }

  /** The log of the first `n` rows. */
  function TraceUpTo(rows: seq<AbsentRow>, n: nat, date: Date, dryRun: bool, mailer: Mailer): seq<Event>
    requires n <= |rows| && ValidDate(date)
  {
    if n == 0 then [] else TraceUpTo(rows, n - 1, date, dryRun, mailer) + EventsFor(rows, n - 1, date, dryRun, mailer)
  }

  /** The i-th row's call was made and did not raise. */
  predicate Counted(rows: seq<AbsentRow>, i: nat, date: Date, dryRun: bool, mailer: Mailer)
    requires i < |rows| && ValidDate(date)
  {
    !dryRun && !CallFor(rows, i, date, mailer).Raised?
  }

  /** Whether each row's call is counted. */
  function CountedFlags(rows: seq<AbsentRow>, date: Date, dryRun: bool, mailer: Mailer): (f: seq<bool>)
    requires ValidDate(date)
    ensures |f| == |rows|
    ensures forall i :: 0 <= i < |rows| ==> f[i] == Counted(rows, i, date, dryRun, mailer)
  {
    seq(|rows|, i requires 0 <= i < |rows| => Counted(rows, i, date, dryRun, mailer))
  }

  /** The positions below `n` whose flag is set. */
  function SetBelow(f: seq<bool>, n: nat): set<nat>
    requires n <= |f|
  {
    set i: nat | i < n && f[i]
  }

  /** The rows among the first `n` whose call did not raise (and was made). */
  function CountedBelow(rows: seq<AbsentRow>, n: nat, date: Date, dryRun: bool, mailer: Mailer): set<nat>
    requires n <= |rows| && ValidDate(date)
  {
    SetBelow(CountedFlags(rows, date, dryRun, mailer), n)
  }

  /** One more position adds itself exactly when its flag is set. */
  lemma SetBelowStep(f: seq<bool>, n: nat)
    requires n < |f|
    ensures |SetBelow(f, n + 1)| == |SetBelow(f, n)| + (if f[n] then 1 else 0)
  {
    if f[n] {
      SetBelowGrows(f, n);
    } else {
      SetBelowStays(f, n);
    }
  }

  lemma SetBelowZero(f: seq<bool>)
    ensures SetBelow(f, 0) == {}
  {
    forall x: nat ensures x !in SetBelow(f, 0) {
    }
  }

  lemma SetBelowGrows(f: seq<bool>, n: nat)
    requires n < |f| && f[n]
    ensures SetBelow(f, n + 1) == SetBelow(f, n) + {n}
    ensures n !in SetBelow(f, n)
  {
    var below, upto := SetBelow(f, n), SetBelow(f, n + 1);
    forall x: nat ensures x in upto <==> x in below + {n} {
    }
  }

  lemma SetBelowStays(f: seq<bool>, n: nat)
    requires n < |f| && !f[n]
    ensures SetBelow(f, n + 1) == SetBelow(f, n)
  {
    var below, upto := SetBelow(f, n), SetBelow(f, n + 1);
    forall x: nat ensures x in upto <==> x in below {
    }
  }

  /** One more row adds one to the count exactly when its call is counted. */
  lemma CountedBelowStep(rows: seq<AbsentRow>, i: nat, date: Date, dryRun: bool, mailer: Mailer)
    requires i < |rows| && ValidDate(date)
    ensures |CountedBelow(rows, i + 1, date, dryRun, mailer)|
      == |CountedBelow(rows, i, date, dryRun, mailer)| + (if Counted(rows, i, date, dryRun, mailer) then 1 else 0)
  {
    SetBelowStep(CountedFlags(rows, date, dryRun, mailer), i);
  }

  /** `main(run_date, dry_run, turno_filter)`. A connection failure in the
      query escapes (`Aborted`). Otherwise the result counts the calls of
      `send_absence_email` that did not raise, each raising call is logged
      and the loop goes on with the next row, and the log is the rows' lines
      in order. */
  method Notify(db: Db, env: DbEnv, date: Date, dryRun: bool, filter: Option<string>, mailer: Mailer)
    returns (r: RunResult)
    requires ValidDate(date)
    ensures env != Healthy <==> r == Aborted
    ensures env == Healthy ==>
      var rows := AbsentStudents(db, date, filter);
      && r.count == |CountedBelow(rows, |rows|, date, dryRun, mailer)|
      && r.trace == TraceUpTo(rows, |rows|, date, dryRun, mailer)
      && (rows == [] ==> r == Completed(0, []))
  {
    if env != Healthy {
      return Aborted;
    }
    var rows := AbsentStudents(db, date, filter);
    var count, trace := NotifyAll(rows, date, dryRun, mailer);
    return Completed(count, trace);
  }

  /** The loop of `main` over the absent rows: nothing at all for an empty
      list, otherwise each row's lines in order and the count of calls that
      did not raise. */
  method NotifyAll(rows: seq<AbsentRow>, date: Date, dryRun: bool, mailer: Mailer)
    returns (count: nat, trace: seq<Event>)
    requires ValidDate(date)
    ensures count == |CountedBelow(rows, |rows|, date, dryRun, mailer)|
    ensures trace == TraceUpTo(rows, |rows|, date, dryRun, mailer)
    ensures rows == [] ==> count == 0 && trace == []
  {
    count := 0;
    trace := [];
    var i := 0;
    while i < |rows|
      invariant 0 <= i <= |rows|
      invariant count == |CountedBelow(rows, i, date, dryRun, mailer)|
      invariant trace == TraceUpTo(rows, i, date, dryRun, mailer)
    {
      var lines, sentOk := NotifyRow(rows, i, date, dryRun, mailer);
      CountedBelowStep(rows, i, date, dryRun, mailer);
      if sentOk {
        count := count + 1;
      }
      trace := trace + lines;
      i := i + 1;
    }
  }

  /** The body of the loop for the i-th row: the dry-run line, or the call
      with its log lines, the pause (or the failed pause) after a call that
      did not raise, and whether it is counted. */
  method NotifyRow(rows: seq<AbsentRow>, i: nat, date: Date, dryRun: bool, mailer: Mailer)
    returns (lines: seq<Event>, sentOk: bool)
    requires i < |rows| && ValidDate(date)
    ensures lines == EventsFor(rows, i, date, dryRun, mailer)
    ensures sentOk == Counted(rows, i, date, dryRun, mailer)
    ensures sentOk <==> !dryRun && |lines| == 2
  {
    sentOk := false;
    if dryRun {
      lines := [WouldSend(rows[i])];
    } else {
      match CallFor(rows, i, date, mailer) {
        case InvalidAddress =>
          sentOk := true;
          lines := [SkippedInvalid(rows[i].name), AfterCount(rows[i].name, mailer.delay)];
        case Delivered(m) =>
          sentOk := true;
          lines := [Sent(m), AfterCount(rows[i].name, mailer.delay)];
        case Raised(c) =>
          lines := [Failed(rows[i].name, c)];
      }
    }
  }

  // ---------------------------------------------------------------------------
  // Properties of the batch

  /** A dry run counts nothing, sends nothing and never pauses: its log is one
      "would send" line per absent row. */
  lemma {:induction false} DryRunSendsNothing(rows: seq<AbsentRow>, n: nat, date: Date, mailer: Mailer)
    requires n <= |rows| && ValidDate(date)
    ensures CountedBelow(rows, n, date, true, mailer) == {}
    ensures |TraceUpTo(rows, n, date, true, mailer)| == n
    ensures forall k :: 0 <= k < n ==> TraceUpTo(rows, n, date, true, mailer)[k] == WouldSend(rows[k])
  {
    if n > 0 {
      DryRunSendsNothing(rows, n - 1, date, mailer);
    }
  }

  /** Every pause in the log comes right after a send or an invalid-address
      skip, never first. */
  predicate PausesFollowSuccess(t: seq<Event>)
  {
    forall k :: 0 <= k < |t| && t[k].Pause? ==> k > 0 && (t[k - 1].Sent? || t[k - 1].SkippedInvalid?)
  }

  /** A pause follows each counted call and nothing else: never after a
      failure, never in a dry run. */
  lemma {:induction false} PauseOnlyAfterSuccess(rows: seq<AbsentRow>, n: nat, date: Date, dryRun: bool, mailer: Mailer)
    requires n <= |rows| && ValidDate(date)
    ensures PausesFollowSuccess(TraceUpTo(rows, n, date, dryRun, mailer))
  {
    if n > 0 {
      var t0, e := TraceUpTo(rows, n - 1, date, dryRun, mailer), EventsFor(rows, n - 1, date, dryRun, mailer);
      PauseOnlyAfterSuccess(rows, n - 1, date, dryRun, mailer);
      RowPausesFollowSuccess(rows, n - 1, date, dryRun, mailer);
      PausesAppend(t0, e);
      TraceStep(rows, n, date, dryRun, mailer);
    }
  }

  /** The log of `n` rows is the log of the first `n - 1` followed by the
      last row's lines. */
  lemma TraceStep(rows: seq<AbsentRow>, n: nat, date: Date, dryRun: bool, mailer: Mailer)
    requires 0 < n <= |rows| && ValidDate(date)
    ensures TraceUpTo(rows, n, date, dryRun, mailer)
      == TraceUpTo(rows, n - 1, date, dryRun, mailer) + EventsFor(rows, n - 1, date, dryRun, mailer)
  {
  }

  /** A row's own lines never start with a pause, and pause only after a
      success. */
  lemma RowPausesFollowSuccess(rows: seq<AbsentRow>, i: nat, date: Date, dryRun: bool, mailer: Mailer)
    requires i < |rows| && ValidDate(date)
    ensures var e := EventsFor(rows, i, date, dryRun, mailer);
      PausesFollowSuccess(e) && e != [] && !e[0].Pause?
  {
  }

  /** Gluing two logs that each keep the rule, the second not starting with a
      pause, keeps it. */
  lemma PausesAppend(t0: seq<Event>, e: seq<Event>)
    requires PausesFollowSuccess(t0) && PausesFollowSuccess(e) && (e == [] || !e[0].Pause?)
    ensures PausesFollowSuccess(t0 + e)
  {
    var t := t0 + e;
    forall k | 0 <= k < |t| && t[k].Pause? ensures k > 0 && (t[k - 1].Sent? || t[k - 1].SkippedInvalid?) {
      if k < |t0| {
        assert t[k] == t0[k];
      } else {
        assert t[k] == e[k - |t0|];
        assert t[k - 1] == e[k - |t0| - 1];
      }
    }
  }

  /** A negative delay does not undo the count: a call that did not raise is
      counted, and its "[OK]" line is followed by the error `time.sleep`
      raises instead of a pause. */
  lemma NegativeDelayStillCounted(rows: seq<AbsentRow>, i: nat, date: Date, mailer: Mailer)
    requires i < |rows| && ValidDate(date) && mailer.delay < 0.0
    requires !CallFor(rows, i, date, mailer).Raised?
    ensures i in CountedBelow(rows, |rows|, date, false, mailer)
    ensures var e := EventsFor(rows, i, date, false, mailer);
      |e| == 2 && (e[0].Sent? || e[0].SkippedInvalid?) && e[1] == SleepFailed(rows[i].name)
  {
  }

  /** A call whose From, To or Subject value spans lines raises when the
      header is set: the row is logged as an error and not counted. */
  lemma HeaderBreakNotCounted(rows: seq<AbsentRow>, i: nat, date: Date, mailer: Mailer)
    requires i < |rows| && ValidDate(date) && HasCredentials(mailer.creds)
    requires !InvalidAddressText(rows[i].email) && !RowHeadersFit(mailer.creds, rows[i])
    requires Substitute(mailer.template.GetOr(DefaultTemplate), Bindings(rows[i].name, FormatDate(date), rows[i].turno)).Some?
    ensures i !in CountedBelow(rows, |rows|, date, false, mailer)
    ensures EventsFor(rows, i, date, false, mailer) == [Failed(rows[i].name, HeaderError)]
  {
  }

  /** A delay past the nanosecond range is refused the same way: the call
      that did not raise is counted, and OverflowError follows its line. */
  lemma OverlongDelayStillCounted(rows: seq<AbsentRow>, i: nat, date: Date, mailer: Mailer)
    requires i < |rows| && ValidDate(date) && mailer.delay * 1_000_000_000.0 > SleepMaxNanos as real
    requires !CallFor(rows, i, date, mailer).Raised?
    ensures i in CountedBelow(rows, |rows|, date, false, mailer)
    ensures var e := EventsFor(rows, i, date, false, mailer);
      |e| == 2 && (e[0].Sent? || e[0].SkippedInvalid?) && e[1] == SleepFailed(rows[i].name)
  {
  }

  /** Without credentials each call with a valid address raises, after the
      address check: only the rows with an invalid address are counted, and
      nothing is sent. */
  lemma MissingCredentialsCountsInvalidOnly(rows: seq<AbsentRow>, n: nat, date: Date, mailer: Mailer)
    requires n <= |rows| && ValidDate(date) && !HasCredentials(mailer.creds)
    ensures CountedBelow(rows, n, date, false, mailer) == set i: nat | i < n && InvalidAddressText(rows[i].email)
    ensures forall i :: 0 <= i < n ==> !CallFor(rows, i, date, mailer).Delivered?
  {
  }

  /** An invalid address is counted as sent although nothing is sent. */
  lemma InvalidAddressCounted(rows: seq<AbsentRow>, i: nat, date: Date, mailer: Mailer)
    requires i < |rows| && ValidDate(date) && InvalidAddressText(rows[i].email)
    ensures i in CountedBelow(rows, |rows|, date, false, mailer)
    ensures CallFor(rows, i, date, mailer) == InvalidAddress
  {
  }

  /** Three absent students whose second send fails: the batch goes on to the
      third and counts two. */
  lemma ThreeWithMiddleFailure(a: AbsentRow, b: AbsentRow, c: AbsentRow, date: Date, mailer: Mailer)
    requires ValidDate(date) && HasCredentials(mailer.creds) && mailer.template.None?
    requires !InvalidAddressText(a.email) && !InvalidAddressText(b.email) && !InvalidAddressText(c.email)
    requires RowHeadersFit(mailer.creds, a) && RowHeadersFit(mailer.creds, b) && RowHeadersFit(mailer.creds, c)
    requires mailer.smtp(0) && !mailer.smtp(1) && mailer.smtp(2)
    ensures |CountedBelow([a, b, c], 3, date, false, mailer)| == 2
    ensures var t := TraceUpTo([a, b, c], 3, date, false, mailer); |t| == 5 && t[2] == Failed(b.name, SmtpError)
  {
    ThreeCalls(a, b, c, date, mailer);
    ThreeCount([a, b, c], date, mailer);
    ThreeTrace([a, b, c], date, mailer);
  }

  lemma ThreeCount(rows: seq<AbsentRow>, date: Date, mailer: Mailer)
    requires |rows| == 3 && ValidDate(date)
    requires Counted(rows, 0, date, false, mailer) && !Counted(rows, 1, date, false, mailer)
    requires Counted(rows, 2, date, false, mailer)
    ensures |CountedBelow(rows, 3, date, false, mailer)| == 2
  {
    SetBelowZero(CountedFlags(rows, date, false, mailer));
    CountedBelowStep(rows, 0, date, false, mailer);
    CountedBelowStep(rows, 1, date, false, mailer);
    CountedBelowStep(rows, 2, date, false, mailer);
  }

  lemma ThreeTrace(rows: seq<AbsentRow>, date: Date, mailer: Mailer)
    requires |rows| == 3 && ValidDate(date)
    requires CallFor(rows, 0, date, mailer).Delivered? && CallFor(rows, 1, date, mailer) == Raised(SmtpError)
    requires CallFor(rows, 2, date, mailer).Delivered?
    ensures var t := TraceUpTo(rows, 3, date, false, mailer); |t| == 5 && t[2] == Failed(rows[1].name, SmtpError)
  {
    var t1, e1 := TraceUpTo(rows, 1, date, false, mailer), EventsFor(rows, 1, date, false, mailer);
    assert TraceUpTo(rows, 0, date, false, mailer) == [];
    assert t1 == TraceUpTo(rows, 0, date, false, mailer) + EventsFor(rows, 0, date, false, mailer);
    assert |EventsFor(rows, 0, date, false, mailer)| == 2;
    assert e1 == [Failed(rows[1].name, SmtpError)];
    assert TraceUpTo(rows, 2, date, false, mailer) == t1 + e1;
    assert |EventsFor(rows, 2, date, false, mailer)| == 2;
  }

  /** The three calls of that run: delivered, refused by the server, delivered. */
  lemma ThreeCalls(a: AbsentRow, b: AbsentRow, c: AbsentRow, date: Date, mailer: Mailer)
    requires ValidDate(date) && HasCredentials(mailer.creds) && mailer.template.None?
    requires !InvalidAddressText(a.email) && !InvalidAddressText(b.email) && !InvalidAddressText(c.email)
    requires RowHeadersFit(mailer.creds, a) && RowHeadersFit(mailer.creds, b) && RowHeadersFit(mailer.creds, c)
    requires mailer.smtp(0) && !mailer.smtp(1) && mailer.smtp(2)
    ensures CallFor([a, b, c], 0, date, mailer).Delivered?
    ensures CallFor([a, b, c], 1, date, mailer) == Raised(SmtpError)
    ensures CallFor([a, b, c], 2, date, mailer).Delivered?
  {
    DefaultBody(a.name, FormatDate(date), a.turno);
    DefaultBody(b.name, FormatDate(date), b.turno);
    DefaultBody(c.name, FormatDate(date), c.turno);
  }
}

=== FILE: pyjson.dfy ===
/** JSON values as the Python code sees them after `resp.json()`, with the few
    Python operations the core applies to them: truthiness, `key in value`,
    `d.get(key)` and subscripting. An operation that would raise a Python
    exception (TypeError, AttributeError, KeyError) yields `Raised`. */
module PyJson {
  import opened Wrappers
  import opened Text

  datatype Json =
    | Null
    | Bool(b: bool)
    | Num(n: real)
    | Str(s: string)
    | Arr(items: seq<Json>)
    | Obj(fields: map<string, Json>)

  /** The result of evaluating a Python expression that may raise. */
  datatype Eval<+T> = Value(value: T) | Raised

  /** Python's `bool(v)`. */
  predicate Truthy(v: Json)
  {
    match v
    case Null => false
    case Bool(b) => b
    case Num(n) => n != 0.0
    case Str(s) => s != ""
    case Arr(xs) => xs != []
    case Obj(m) => m != map[]
  }

  /** Python's `item in v` for a string `item`: a key of a dict, a substring of a
      str, an element of a list; a TypeError for None, booleans and numbers. */
  function In(item: string, v: Json): (r: Eval<bool>)
    ensures r.Raised? <==> (v.Null? || v.Bool? || v.Num?)
    ensures v.Obj? ==> r == Value(item in v.fields)
    ensures v.Str? ==> r == Value(exists i :: OccursAt(v.s, item, i))
  {
    match v
    case Obj(m) => Value(item in m)
    case Str(s) => ContainsIff(s, item); Value(Contains(s, item))
    case Arr(xs) => Value(Str(item) in xs)
    case _ => Raised
  }

  /** Python's `d.get(key)` on a dict. */
  function Get(m: map<string, Json>, key: string): (r: Option<Json>)
    ensures r.Some? <==> key in m
    ensures r.Some? ==> r.value == m[key]
  {
    if key in m then Some(m[key]) else None
  }

  /** Python's `v or default` where `v` is an optional JSON value. */
  function OrElse(v: Option<Json>, default: Json): (r: Json)
    ensures v.Some? && Truthy(v.value) ==> r == v.value
    ensures !(v.Some? && Truthy(v.value)) ==> r == default
  {
    if v.Some? && Truthy(v.value) then v.value else default
  }

  /** `(d.get(key) or {})` followed by `.get(inner)`: the dict-valued field
      `key`, empty when missing or falsy; an AttributeError when it is a truthy
      value that is not a dict. */
  function NestedGet(m: map<string, Json>, key: string, inner: string): (r: Eval<Option<Json>>)
    ensures r.Raised? <==> (key in m && Truthy(m[key]) && !m[key].Obj?)
    ensures key in m && m[key].Obj? && inner in m[key].fields ==> r == Value(Some(m[key].fields[inner]))
    ensures (key !in m || !Truthy(m[key])) ==> r == Value(None)
  {
    match OrElse(Get(m, key), Obj(map[]))
    case Obj(d) => Value(Get(d, inner))
    case _ => Raised
  }

  /** Python's `v[0]` on a truthy value: the first element of a list, the first
      character of a str; a KeyError on a dict (JSON keys are never the int 0)
      and a TypeError on anything else. */
  function First(v: Json): (r: Eval<Json>)
    requires Truthy(v)
    ensures v.Arr? ==> r == Value(v.items[0])
    ensures !v.Arr? && !v.Str? ==> r.Raised?
  {
    match v
    case Arr(xs) => Value(xs[0])
    case Str(s) => Value(Str([s[0]]))
    case _ => Raised
  }

  /** The numeric value Python compares when `v > 80` is evaluated: a number, or a
      bool as 0 or 1; a TypeError for anything else. */
  function AsNumber(v: Json): (r: Eval<real>)
    ensures v.Num? ==> r == Value(v.n)
    ensures v.Bool? ==> r == Value(if v.b then 1.0 else 0.0)
    ensures !v.Num? && !v.Bool? ==> r.Raised?
  {
    match v
    case Num(n) => Value(n)
    case Bool(b) => Value(if b then 1.0 else 0.0)
    case _ => Raised
  }
}

=== FILE: scan.dfy ===
/** `chamada_webcam`: one webcam frame is searched in the collection and the
    best match, when confident enough, toggles that student's attendance. */
module Scan {
  import opened Wrappers
  import opened Text
  import opened PyJson
  import opened Calendar
  import opened Store
  import opened Identity
  import opened Http
  import opened FaceSet
  import opened Attendance

  /** Matches at or below this confidence are not acted on. */
  const Threshold: real := 80.0

  const NoFaceMessage: string := "Nenhum rosto detectado"

  /** What the search answer leads to, before the store is touched. */
  datatype Gate =
    | GateCrash                                  // a Python exception escapes
    | MatcherError(error: Json, details: Option<Json>)
    | LowConfidence
    | NotDetected(message: Json)
    | Act(name: string, confidence: real)

  /** The route's JSON reply. */
  datatype Reply =
    | NoImage                                     // "Nenhuma imagem recebida."
    | BadImageFormat                              // "Formato de imagem inválido."
    | FaceppError(error: Json, details: Option<Json>)
    | Removed(name: string)                       // status "apagada"
    | Present(name: string, confidence: real)     // status "presente"
    | StoreError                                  // "Erro ao registrar presença no banco."
    | NotIdentified                               // status "nao_identificado"
    | NoDetection(message: Json)                  // status "nao_detectado"
    | InternalError                               // an uncaught exception: Flask answers 500

  function HttpCode(r: Reply): nat
  {
    match r
    case NoImage => 400
    case BadImageFormat => 400
    case FaceppError(_, _) => 400
    case StoreError => 500
    case InternalError => 500
    case _ => 200
  }

  /** `alunos_tokens.get(token, "Desconhecido")` for whatever JSON value the
      "face_token" field holds: a string is looked up, another hashable value
      is never a key, and a list or dict is unhashable (a TypeError). */
  function ResolveToken(tokens: TokenMap, token: Json): (r: Eval<string>)
    ensures r.Raised? <==> token.Arr? || token.Obj?
    ensures token.Str? && token.s in tokens ==> r == Value(tokens[token.s])
    ensures r.Value? && !(token.Str? && token.s in tokens) ==> r == Value(Unknown)
  {
    match token
    case Str(t) => Value(Resolve(tokens, t))
    case Arr(_) => Raised
    case Obj(_) => Raised
    case _ => Value(Unknown)
  }

  /** The decision on the best candidate `results[0]`. */
  function DecideCandidate(tokens: TokenMap, candidate: Json): (g: Gate)
    ensures g.Act? ==> g.confidence > Threshold
  {
    match candidate
    case Obj(c) =>
      (match AsNumber(if "confidence" in c then c["confidence"] else Num(0.0))
       case Raised => GateCrash
       case Value(score) =>
         if !(score > Threshold) then LowConfidence
         else if "face_token" !in c then GateCrash
         else
           match ResolveToken(tokens, c["face_token"])
           case Raised => GateCrash
           case Value(name) =>
             // a bool never exceeds the threshold, so the score is the number itself
             Act(name, score))
    case _ => GateCrash
  }

  /** The gate over the search answer (lines handling `response`). */
  function Decide(tokens: TokenMap, response: Json): (g: Gate)
    ensures g.Act? ==> g.confidence > Threshold
  {
    match In("error", response)
    case Raised => GateCrash
    case Value(true) =>
      if response.Obj? then MatcherError(response.fields["error"], Get(response.fields, "details"))
      else GateCrash
    case Value(false) =>
      if !response.Obj? then GateCrash
      else
        var results := Get(response.fields, "results");
        if results.Some? && Truthy(results.value) then
          match First(results.value)
          case Raised => GateCrash
          case Value(candidate) => DecideCandidate(tokens, candidate)
        else
          match NestedGet(response.fields, "details", "error_message")
          case Raised => GateCrash
          case Value(m) => NotDetected(OrElse(m, Str(NoFaceMessage)))
  }

  /** The reply for what `registrar_presenca` returned: "apagada" is checked
      first, then truthiness. */
  function ReplyFor(result: PresenceResult, name: string, confidence: real): (r: Reply)
    ensures result == Apagada ==> r == Removed(name)
    ensures result == Registered ==> r == Present(name, confidence)
    ensures !PyTruthy(result) ==> r == StoreError && HttpCode(r) == 500
  {
    if result == Apagada then Removed(name)
    else if PyTruthy(result) then Present(name, confidence)
    else StoreError
  }

  /** `chamada_webcam()`. `body` is the request's JSON (None when it is absent
      or unparsable), `decodes` whether the base64 payload decodes, `getX`,
      `createX`, `searchX` what the three requests to the service yield, and
      `tokenFile` the token map on disk. */
  function ScanFrame(tokenFile: Option<TokenMap>, tokens: TokenMap, db: Db, env: DbEnv, today: Date,
                     body: Option<Json>, decodes: bool,
                     getX: Exchange, createX: Exchange, searchX: Exchange): (r: (Db, Reply))
    ensures r.0.students == db.students
    ensures r.1.Removed? || r.1.Present? || r.0 == db
  {
    var loaded := Load(tokens, tokenFile);
    match Intake(body)
    case Reject(reply) => (db, reply)
    case Accept(_) =>
      if !decodes then (db, InternalError)
      else if EnsureExists(getX, createX).end.Crashed? then (db, InternalError)
      else Respond(loaded, db, env, today, RequestJsonSafe(SearchUrl, searchX))
  }

  /** The outcome of the request-body checks: a reply, or the frame's data URL. */
  datatype Checked = Reject(reply: Reply) | Accept(image: string)

  /** The checks on the request body: a JSON body that is truthy and has
      "image_data", whose value is a string that `split(',')[1]` can index. */
  function Intake(body: Option<Json>): (c: Checked)
    ensures c.Reject? ==> c.reply.NoImage? || c.reply.BadImageFormat? || c.reply.InternalError?
    ensures c.Accept? ==> Contains(c.image, ",")
  {
    if body.None? || !Truthy(body.value) then Reject(NoImage)
    else
      match In("image_data", body.value)
      case Raised => Reject(InternalError)
      case Value(false) => Reject(NoImage)
      case Value(true) =>
        if !body.value.Obj? then Reject(BadImageFormat)
        else
          var image := body.value.fields["image_data"];
          if !image.Str? || !Contains(image.s, ",") then Reject(BadImageFormat)
          else Accept(image.s)
  }

  /** A body holding just a data URL is accepted. */
  lemma DataUrlAccepted(image: string)
    requires Contains(image, ",")
    ensures Intake(Some(Obj(map["image_data" := Str(image)]))) == Accept(image)
  {
    var fields := map["image_data" := Str(image)];
    assert "image_data" in fields;
    assert Truthy(Obj(fields));
  }

  /** The part of `chamada_webcam` after the search request: the gate, the
      toggle when it acts, and the reply. */
  function Respond(tokens: TokenMap, db: Db, env: DbEnv, today: Date, answer: Json): (r: (Db, Reply))
    ensures r.0.students == db.students
    ensures r.1.Removed? || r.1.Present? || r.0 == db
  {
    match Decide(tokens, answer)
    case GateCrash => (db, InternalError)
    case MatcherError(e, d) => (db, FaceppError(e, d))
    case LowConfidence => (db, NotIdentified)
    case NotDetected(m) => (db, NoDetection(m))
    case Act(name, score) =>
      var t := Toggle(db, env, name, score, today);
      (t.db, ReplyFor(t.result, name, score))
  }

  // ---------------------------------------------------------------------------
  // Properties

  /** A search answer whose best candidate is `c`. */
  function SearchAnswer(others: map<string, Json>, c: Json, rest: seq<Json>): Json
  {
    Obj(others["results" := Arr([c] + rest)])
  }

  /** Only `results[0]` is considered: the other candidates never change the decision. */
  lemma OnlyFirstCandidate(tokens: TokenMap, others: map<string, Json>, c: Json, rest1: seq<Json>, rest2: seq<Json>)
    requires "error" !in others
    ensures Decide(tokens, SearchAnswer(others, c, rest1)) == Decide(tokens, SearchAnswer(others, c, rest2))
    ensures Decide(tokens, SearchAnswer(others, c, rest1)) == DecideCandidate(tokens, c)
  {
  }

  /** A candidate without a confidence counts as confidence 0: it is not acted on. */
  lemma MissingConfidenceIsLow(tokens: TokenMap, c: map<string, Json>)
    requires "confidence" !in c
    ensures DecideCandidate(tokens, Obj(c)) == LowConfidence
  {
  }

  /** A numeric confidence is acted on exactly when it is strictly above 80 (and
      the candidate carries a token that can be looked up); the name is the
      map's entry for the token, or "Desconhecido". */
  lemma ActsIffAboveThreshold(tokens: TokenMap, c: map<string, Json>, score: real, token: string)
    requires "confidence" in c && c["confidence"] == Num(score)
    requires "face_token" in c && c["face_token"] == Str(token)
    ensures DecideCandidate(tokens, Obj(c)).Act? <==> score > Threshold
    ensures score > Threshold ==>
      DecideCandidate(tokens, Obj(c)) == Act(if token in tokens then tokens[token] else Unknown, score)
    ensures score <= Threshold ==> DecideCandidate(tokens, Obj(c)) == LowConfidence
  {
  }

  /** The boundary: 80 is not enough, 80.1 is. */
  lemma ThresholdBoundary(tokens: TokenMap, token: string)
    ensures DecideCandidate(tokens, Obj(map["confidence" := Num(80.0), "face_token" := Str(token)])) == LowConfidence
    ensures DecideCandidate(tokens, Obj(map["confidence" := Num(80.1), "face_token" := Str(token)])).Act?
  {
  }

  /** "apagada" is a truthy value: testing truthiness first would have
      reported a removal as a new presence. */
  lemma ApagadaCheckedFirst(name: string, confidence: real)
    ensures PyTruthy(Apagada)
    ensures ReplyFor(Apagada, name, confidence) != Present(name, confidence)
  {
  }

  /** The store is touched only for a candidate above the threshold, and the
      reply then follows what the toggle returned; False (database error) and
      None (no connection) become a 500. */
  lemma ScanTogglesOnlyAboveThreshold(tokenFile: Option<TokenMap>, tokens: TokenMap, db: Db, env: DbEnv,
                                      today: Date, body: Option<Json>, decodes: bool,
                                      getX: Exchange, createX: Exchange, searchX: Exchange)
    ensures var r := ScanFrame(tokenFile, tokens, db, env, today, body, decodes, getX, createX, searchX);
      r.0 != db || r.1.Removed? || r.1.Present? || r.1.StoreError? ==>
        var g := Decide(Load(tokens, tokenFile), RequestJsonSafe(SearchUrl, searchX));
        && g.Act? && g.confidence > Threshold
        && var t := Toggle(db, env, g.name, g.confidence, today);
           r == (t.db, ReplyFor(t.result, g.name, g.confidence))
  {
  }

  /** A decision to act always runs the toggle under the decided name and
      confidence, and the reply follows what the toggle returned. */
  lemma ActTogglesStore(tokens: TokenMap, db: Db, env: DbEnv, today: Date, answer: Json)
    requires Decide(tokens, answer).Act?
    ensures var g := Decide(tokens, answer);
      var t := Toggle(db, env, g.name, g.confidence, today);
      Respond(tokens, db, env, today, answer) == (t.db, ReplyFor(t.result, g.name, g.confidence))
  {
  }

  /** A search answer whose best candidate scores above 80 is acted on, under
      the map's name for its token (or "Desconhecido"), whatever the other
      candidates are. */
  lemma ConfidentMatchActs(tokens: TokenMap, c: map<string, Json>, score: real, token: string, others: seq<Json>)
    requires "confidence" in c && c["confidence"] == Num(score) && score > Threshold
    requires "face_token" in c && c["face_token"] == Str(token)
    ensures Decide(tokens, Obj(map["results" := Arr([Obj(c)] + others)]))
         == Act(if token in tokens then tokens[token] else Unknown, score)
  {
    var fields := map["results" := Arr([Obj(c)] + others)];
    assert "error" !in fields;
    assert Get(fields, "results") == Some(Arr([Obj(c)] + others));
    assert First(Arr([Obj(c)] + others)) == Value(Obj(c));
    ActsIffAboveThreshold(tokens, c, score, token);
  }

  /** The route toggles attendance for a confident match: a frame that passes
      the input checks and provisioning, with a search answer the gate acts
      on, gives the toggle's store and the reply for its result. */
  lemma ConfidentFrameToggles(tokenFile: Option<TokenMap>, tokens: TokenMap, db: Db, env: DbEnv, today: Date,
                              image: string, getX: Exchange, createX: Exchange, searchX: Exchange,
                              name: string, score: real)
    requires Contains(image, ",")
    requires !EnsureExists(getX, createX).end.Crashed?
    requires Decide(Load(tokens, tokenFile), RequestJsonSafe(SearchUrl, searchX)) == Act(name, score)
    ensures var t := Toggle(db, env, name, score, today);
      ScanFrame(tokenFile, tokens, db, env, today, Some(Obj(map["image_data" := Str(image)])), true, getX, createX, searchX)
        == (t.db, ReplyFor(t.result, name, score))
  {
    FrameReachesSearch(tokenFile, tokens, db, env, today, image, getX, createX, searchX);
    ActTogglesStore(Load(tokens, tokenFile), db, env, today, RequestJsonSafe(SearchUrl, searchX));
  }

  /** When the toggle's transaction raises, a confident match is answered with
      a 500 and the store is left as it was. */
  lemma FaultyStoreIs500(tokens: TokenMap, db: Db, today: Date, answer: Json)
    requires Decide(tokens, answer).Act?
    ensures Respond(tokens, db, Faulty, today, answer) == (db, StoreError)
    ensures HttpCode(Respond(tokens, db, Faulty, today, answer).1) == 500
  {
    var g := Decide(tokens, answer);
    ActTogglesStore(tokens, db, Faulty, today, answer);
    ToggleFaultyFails(db, g.name, g.confidence, today);
  }

  /** An error answer from the search (any non-200 status or a transport
      failure) is reported as a 400 and never touches the store. */
  lemma SearchErrorIs400(tokenFile: Option<TokenMap>, tokens: TokenMap, db: Db, env: DbEnv, today: Date,
                         image: string, getX: Exchange, createX: Exchange, searchX: Exchange)
    requires !(searchX.Response? && searchX.status == 200)
    requires Contains(image, ",")
    requires !EnsureExists(getX, createX).end.Crashed?
    ensures var r := ScanFrame(tokenFile, tokens, db, env, today, Some(Obj(map["image_data" := Str(image)])),
                               true, getX, createX, searchX);
      r.0 == db && r.1.FaceppError? && HttpCode(r.1) == 400
  {
    FrameReachesSearch(tokenFile, tokens, db, env, today, image, getX, createX, searchX);
    var answer := RequestJsonSafe(SearchUrl, searchX);
    assert answer.Obj? && "error" in answer.fields;
    ErrorAnswerReported(Load(tokens, tokenFile), answer);
  }

  /** A frame whose `image_data` is a data URL that decodes goes past the input
      checks and provisioning to the search answer. */
  lemma FrameReachesSearch(tokenFile: Option<TokenMap>, tokens: TokenMap, db: Db, env: DbEnv, today: Date,
                           image: string, getX: Exchange, createX: Exchange, searchX: Exchange)
    requires Contains(image, ",")
    requires !EnsureExists(getX, createX).end.Crashed?
    ensures ScanFrame(tokenFile, tokens, db, env, today, Some(Obj(map["image_data" := Str(image)])), true, getX, createX, searchX)
         == Respond(Load(tokens, tokenFile), db, env, today, RequestJsonSafe(SearchUrl, searchX))
  {
    DataUrlAccepted(image);
  }

  /** A search answer carrying "error" is reported as the service's error. */
  lemma ErrorAnswerReported(tokens: TokenMap, answer: Json)
    requires answer.Obj? && "error" in answer.fields
    ensures Decide(tokens, answer) == MatcherError(answer.fields["error"], Get(answer.fields, "details"))
  {
  }
}

=== FILE: store.dfy ===
/** The relational store: the `alunos` and `presencas` tables with the
    constraints their DDL declares, and the connection outcomes a
    database operation can meet. */
module Store {
  import opened Wrappers
  import opened Calendar

  /** A row of `alunos`. `turno` is read by the absence query although the
      DDL shown does not create that column; it is modelled as a nullable text
      column. The enrollment timestamp is not modelled. */
  datatype Student = Student(
    id: nat,
    name: string,
    faceToken: string,
    email: Option<string>,
    turno: Option<string>)

  /** A row of `presencas`. The scan timestamp is not modelled. */
  datatype Presence = Presence(
    id: nat,
    studentId: nat,
    date: Date,
    present: bool,
    confidence: real)

  /** Both tables, in table order, with the next values of their SERIAL ids. */
  datatype Db = Db(
    students: seq<Student>,
    presences: seq<Presence>,
    nextStudentId: nat,
    nextPresenceId: nat)

  /** What opening a connection and running statements on it yields:
      no connection (`get_db_connection` returned None), a connection whose
      statement raises (the transaction rolls back), or a working one. */
  datatype DbEnv = Unavailable | Faulty | Healthy

  /** `nome VARCHAR(100)`. */
  const NameMax: nat := 100
  /** `face_token VARCHAR(255)`. */
  const TokenMax: nat := 255

  /** `confianca DECIMAL(5,2)` holds values whose rounding to two decimals
      stays below 1000 in magnitude. */
  predicate FitsConfidence(c: real)
  {
    -999.995 < c < 999.995
  }

  predicate StudentsValid(db: Db)
  {
    && (forall i :: 0 <= i < |db.students| ==>
          db.students[i].id < db.nextStudentId
          && |db.students[i].name| <= NameMax
          && |db.students[i].faceToken| <= TokenMax)
    && (forall i, j :: 0 <= i < j < |db.students| ==>
          db.students[i].id != db.students[j].id
          && db.students[i].faceToken != db.students[j].faceToken)
  }

  /** Some student has this id (`REFERENCES alunos(id)`). */
  predicate HasStudent(students: seq<Student>, id: nat)
  {
    exists k :: 0 <= k < |students| && students[k].id == id
  }

  /** `UNIQUE(aluno_id, data_presenca)`. */
  predicate OnePerDay(ps: seq<Presence>)
  {
    forall i, j :: 0 <= i < j < |ps| ==>
      ps[i].studentId != ps[j].studentId || ps[i].date != ps[j].date
  }

  /** Two rows may sit in the same table: distinct primary keys and not the
      same student on the same day. */
  predicate Compatible(p: Presence, q: Presence)
  {
    p.id != q.id && (p.studentId != q.studentId || p.date != q.date)
  }

  /** The table satisfies its PRIMARY KEY and its UNIQUE constraint. */
  predicate Pairwise(ps: seq<Presence>)
  {
    forall i, j :: 0 <= i < j < |ps| ==> Compatible(ps[i], ps[j])
  }

  predicate PresencesValid(db: Db)
  {
    && (forall i :: 0 <= i < |db.presences| ==>
          db.presences[i].id < db.nextPresenceId
          && HasStudent(db.students, db.presences[i].studentId)
          && FitsConfidence(db.presences[i].confidence))
    && Pairwise(db.presences)
  }

  /** Every constraint the schema declares holds. */
  predicate Valid(db: Db)
  {
    StudentsValid(db) && PresencesValid(db)
  }

  lemma PairwiseOnePerDay(ps: seq<Presence>)
    requires Pairwise(ps)
    ensures OnePerDay(ps)
  {
  }

  /** The students with this name, in table order (`... FROM alunos WHERE nome = %s`). */
  function Namesakes(students: seq<Student>, name: string): (r: seq<Student>)
    ensures |r| <= |students|
    ensures forall k :: 0 <= k < |r| ==> r[k] in students && r[k].name == name
  {
    if |students| == 0 then []
    else if students[0].name == name then [students[0]] + Namesakes(students[1..], name)
    else Namesakes(students[1..], name)
  }

  /** Every student with the name is selected. */
  lemma {:induction false} NamesakesComplete(students: seq<Student>, name: string, k: nat)
    requires k < |students| && students[k].name == name
    ensures students[k] in Namesakes(students, name)
  {
    if k > 0 {
      NamesakesComplete(students[1..], name, k - 1);
      assert students[1..][k - 1] == students[k];
    }
  }
}

=== FILE: text.dfy ===
/** Text helpers with Python's semantics: `str.strip`, `sub in s`, `s.startswith(p)`,
    decimal rendering of integers (f-strings) and the code-point order used for `ORDER BY`. */
module Text {
  import opened Wrappers

  // ---------------------------------------------------------------------------
  // Whitespace and str.strip()

  /** Python's `str.isspace` for a single character (the Unicode White_Space set
      together with the ASCII information separators 0x1C-0x1F). */
  predicate IsSpace(c: char)
  {
    || c == ' ' || c == '\t' || c == '\n' || c == '\r'
    || c == '\U{000B}' || c == '\U{000C}'
    || ('\U{001C}' <= c <= '\U{001F}')
    || c == '\U{0085}' || c == '\U{00A0}' || c == '\U{1680}'
    || ('\U{2000}' <= c <= '\U{200A}')
    || c == '\U{2028}' || c == '\U{2029}' || c == '\U{202F}' || c == '\U{205F}' || c == '\U{3000}'
  }

  predicate AllSpace(s: string)
  {
    forall i :: 0 <= i < |s| ==> IsSpace(s[i])
  }

  /** Python's `s.lstrip()`: the suffix left after the leading whitespace. */
  function TrimLeft(s: string): (r: string)
    ensures |r| <= |s| && r == s[|s| - |r|..] && AllSpace(s[..|s| - |r|])
    ensures r == [] || !IsSpace(r[0])
  {
    if |s| > 0 && IsSpace(s[0]) then
      var r := TrimLeft(s[1..]);
      LeadingSpaceStep(s, r);
      r
    else
      s
  }

  /** A whitespace character in front of a whitespace prefix of the rest. */
  lemma LeadingSpaceStep(s: string, r: string)
    requires |s| > 0 && IsSpace(s[0])
    requires |r| <= |s[1..]| && r == s[1..][|s[1..]| - |r|..] && AllSpace(s[1..][..|s[1..]| - |r|])
    ensures |r| <= |s| && r == s[|s| - |r|..] && AllSpace(s[..|s| - |r|])
  {
    var n := |s| - |r|;
    forall k | 0 <= k < n ensures IsSpace(s[k]) {
      if k > 0 { assert s[k] == s[1..][..n - 1][k - 1]; }
    }
    assert s[1..][n - 1..] == s[n..];
  }

  /** Python's `s.rstrip()`: the prefix left before the trailing whitespace. */
  function TrimRight(s: string): (r: string)
    ensures |r| <= |s| && r == s[..|r|] && AllSpace(s[|r|..])
    ensures r == [] || !IsSpace(r[|r| - 1])
  {
    if |s| > 0 && IsSpace(s[|s| - 1]) then
      var r := TrimRight(s[..|s| - 1]);
      assert AllSpace(s[|r|..]) by {
        forall k | |r| <= k < |s| ensures IsSpace(s[k]) {
          if k < |s| - 1 { assert s[k] == s[..|s| - 1][|r|..][k - |r|]; }
        }
      }
      r
    else
      s
  }

  /** `r` is what is left of `s` once its whitespace borders are cut off: an
      infix with only whitespace before and after it, neither starting nor
      ending with whitespace. */
  predicate Stripped(s: string, r: string)
  {
    && (exists i :: 0 <= i && i + |r| <= |s| && r == s[i..i + |r|] && AllSpace(s[..i]) && AllSpace(s[i + |r|..]))
    && (r == [] || (!IsSpace(r[0]) && !IsSpace(r[|r| - 1])))
  }

  /** Python's `s.strip()` with no argument: drop leading and trailing whitespace. */
  function Strip(s: string): (r: string)
    ensures Stripped(s, r)
  {
    var l := TrimLeft(s);
    var r := TrimRight(l);
    InfixOfSuffix(s, l, r);
    r
  }

  /** The whitespace-free core of a suffix whose cut-off parts are whitespace
      is an infix of the whole string with whitespace on both sides. */
  lemma InfixOfSuffix(s: string, l: string, r: string)
    requires |l| <= |s| && l == s[|s| - |l|..] && AllSpace(s[..|s| - |l|])
    requires |r| <= |l| && r == l[..|r|] && AllSpace(l[|r|..])
    requires r == [] || (!IsSpace(r[|r| - 1]) && !IsSpace(l[0]))
    ensures Stripped(s, r)
  {
    var i := |s| - |l|;
    assert s[i + |r|..] == l[|r|..];
    assert r == s[i..i + |r|];
    assert r != [] ==> r[0] == l[0];
  }

  lemma {:induction false} TrimLeftFixed(s: string)
    requires s == [] || !IsSpace(s[0])
    ensures TrimLeft(s) == s
  {
  }

  lemma {:induction false} TrimRightFixed(s: string)
    requires s == [] || !IsSpace(s[|s| - 1])
    ensures TrimRight(s) == s
  {
  }

  /** Stripping twice is stripping once. */
  lemma StripIdempotent(s: string)
    ensures Strip(Strip(s)) == Strip(s)
  {
    var r := Strip(s);
    TrimLeftFixed(r);
    TrimRightFixed(r);
  }

  // ---------------------------------------------------------------------------
  // Substrings: Python's `sub in s` and `s.startswith(p)`

  /** `sub` occurs in `s` starting at index `i`. */
  predicate OccursAt(s: string, sub: string, i: int)
  {
    0 <= i && i + |sub| <= |s| && s[i..i + |sub|] == sub
  }

  /** Python's `sub in s` for two strings (true for the empty `sub`). */
  predicate Contains(s: string, sub: string)
    decreases |s|
  {
    |sub| <= |s| && (s[..|sub|] == sub || (|s| > 0 && Contains(s[1..], sub)))
  }

  /** The scan agrees with the definition by position, in both directions. */
  lemma {:induction false} ContainsIff(s: string, sub: string)
    ensures Contains(s, sub) <==> exists i :: OccursAt(s, sub, i)
    decreases |s|
  {
    if Contains(s, sub) {
      if s[..|sub|] == sub {
        assert OccursAt(s, sub, 0);
      } else {
        ContainsIff(s[1..], sub);
        var i :| OccursAt(s[1..], sub, i);
        assert s[1..][i..i + |sub|] == s[i + 1..i + 1 + |sub|];
        assert OccursAt(s, sub, i + 1);
      }
    }
    if exists i :: OccursAt(s, sub, i) {
      var i :| OccursAt(s, sub, i);
      if i > 0 {
        assert s[1..][i - 1..i - 1 + |sub|] == s[i..i + |sub|];
        assert OccursAt(s[1..], sub, i - 1);
        ContainsIff(s[1..], sub);
      }
    }
  }

  /** Python's `s.startswith(p)`. */
  predicate StartsWith(s: string, p: string)
  {
    |p| <= |s| && s[..|p|] == p
  }

  // ---------------------------------------------------------------------------
  // Lines, as Python's `str.splitlines` sees them

  /** The line boundaries `str.splitlines` recognises. */
  predicate LineBreak(c: char)
  {
    || c == '\n' || c == '\r' || c == '\U{000B}' || c == '\U{000C}'
    || ('\U{001C}' <= c <= '\U{001E}')
    || c == '\U{0085}' || c == '\U{2028}' || c == '\U{2029}'
  }

  /** Position `k` starts the final terminator of `s`: the last character,
      or a "\r\n" pair ending the text. */
  predicate EndsText(s: string, k: nat)
    requires k < |s|
  {
    k == |s| - 1 || (k == |s| - 2 && s[k] == '\r' && s[k + 1] == '\n')
  }

  /** Every line break in `s` belongs to its final terminator. */
  predicate SingleLine(s: string)
  {
    forall k: nat :: k < |s| && LineBreak(s[k]) ==> EndsText(s, k)
  }

  /** A line break with two or more characters after it splits the text. */
  lemma BreakInside(s: string, k: nat)
    requires k + 2 < |s| && LineBreak(s[k])
    ensures !SingleLine(s)
  {
  }

  /** The position of the first line break, if any. */
  function FirstBreak(s: string): (r: Option<nat>)
    ensures r.Some? ==> r.value < |s| && LineBreak(s[r.value])
    ensures r.Some? ==> forall k :: 0 <= k < r.value ==> !LineBreak(s[k])
    ensures r.None? ==> forall k :: 0 <= k < |s| ==> !LineBreak(s[k])
  {
    if |s| == 0 then None
    else if LineBreak(s[0]) then Some(0)
    else
      match FirstBreak(s[1..])
      case None => None
      case Some(i) => Some(i + 1)
  }

  /** Python's `s.splitlines()`: the lines without their terminators, a
      "\r\n" pair counting as one terminator, and no empty last line after
      a final terminator. */
  function SplitLines(s: string): seq<string>
    decreases |s|
  {
    match FirstBreak(s)
    case None => if s == [] then [] else [s]
    case Some(i) =>
      var next := if s[i] == '\r' && i + 1 < |s| && s[i + 1] == '\n' then i + 2 else i + 1;
      [s[..i]] + SplitLines(s[next..])
  }

  /** `len(s.splitlines()) <= 1` exactly when every line break is part of the
      final terminator. */
  lemma SingleLineIff(s: string)
    ensures |SplitLines(s)| <= 1 <==> SingleLine(s)
  {
    match FirstBreak(s)
    case None =>
    case Some(i) =>
      var next := if s[i] == '\r' && i + 1 < |s| && s[i + 1] == '\n' then i + 2 else i + 1;
      assert SplitLines(s) == [s[..i]] + SplitLines(s[next..]);
      if next < |s| {
        SplitLinesNonEmpty(s[next..]);
        assert |SplitLines(s)| > 1;
        if next == i + 1 {
          assert !EndsText(s, i);
        } else {
          assert LineBreak(s[i + 1]) && !EndsText(s, i + 1);
        }
      } else {
        forall k: nat | k < |s| && LineBreak(s[k]) ensures EndsText(s, k) {
        }
        assert s[next..] == [];
      }
  }

  /** A non-empty text has at least one line. */
  lemma SplitLinesNonEmpty(s: string)
    requires s != []
    ensures |SplitLines(s)| >= 1
  {
  }

  // ---------------------------------------------------------------------------
  // Decimal numbers, as Python's f-strings render an `int`

  function DigitChar(d: nat): (c: char)
    requires d < 10
    ensures '0' <= c <= '9'
  {
    "0123456789"[d]
  }

  predicate IsDigit(c: char)
  {
    '0' <= c <= '9'
  }

  function DigitValue(c: char): (d: nat)
    requires IsDigit(c)
    ensures d < 10
  {
    (c as int - '0' as int) as nat
  }

  predicate AllDigits(s: string)
  {
    forall i :: 0 <= i < |s| ==> IsDigit(s[i])
  }

  /** Decimal rendering of a natural number, without leading zeros. */
  function NatToString(n: nat): (s: string)
    ensures |s| > 0 && AllDigits(s)
    ensures n >= 10 ==> s[0] != '0'
    decreases n
  {
    if n < 10 then [DigitChar(n)] else NatToString(n / 10) + [DigitChar(n % 10)]
  }

  /** The value of a string of decimal digits. */
  function DigitsValue(s: string): nat
    requires AllDigits(s)
  {
    if |s| == 0 then 0 else DigitsValue(s[..|s| - 1]) * 10 + DigitValue(s[|s| - 1])
  }

  /** Reading the digits back gives the number: the rendering loses nothing. */
  lemma {:induction false} NatToStringRoundTrip(n: nat)
    ensures DigitsValue(NatToString(n)) == n
    decreases n
  {
    var s := NatToString(n);
    if n < 10 {
      assert s[..0] == [];
    } else {
      NatToStringRoundTrip(n / 10);
      assert s[..|s| - 1] == NatToString(n / 10);
    }
  }

  /** Two numbers render alike only when they are equal. */
  lemma NatToStringInjective(a: nat, b: nat)
    requires NatToString(a) == NatToString(b)
    ensures a == b
  {
    NatToStringRoundTrip(a);
    NatToStringRoundTrip(b);
  }

  /** Numbers from 100 to 999 render as exactly three digits. */
  lemma ThreeDigits(n: nat)
    requires 100 <= n <= 999
    ensures |NatToString(n)| == 3
  {
    assert 10 <= n / 10 < 100;
    assert 1 <= n / 10 / 10 < 10;
    assert |NatToString(n / 10 / 10)| == 1;
    assert |NatToString(n / 10)| == 2;
  }

  // ---------------------------------------------------------------------------
  // Ordering of names: ORDER BY under byte/code-point collation

  /** Lexicographic order on code points, shorter prefix first. */
  predicate LexLe(a: string, b: string)
  {
    |a| == 0 || (|b| > 0 && (a[0] < b[0] || (a[0] == b[0] && LexLe(a[1..], b[1..]))))
  }

  lemma {:induction false} LexLeTotal(a: string, b: string)
    ensures LexLe(a, b) || LexLe(b, a)
    decreases |a|
  {
    if |a| > 0 && |b| > 0 && a[0] == b[0] {
      LexLeTotal(a[1..], b[1..]);
    }
  }

  lemma {:induction false} LexLeTransitive(a: string, b: string, c: string)
    requires LexLe(a, b) && LexLe(b, c)
    ensures LexLe(a, c)
    decreases |a|
  {
    if |a| > 0 && a[0] == b[0] && b[0] == c[0] {
      LexLeTransitive(a[1..], b[1..], c[1..]);
    }
  }
}

=== FILE: wrappers.dfy ===
/** Small failure-compatible datatypes shared by every module of the model. */
module Wrappers {

  /** A value that may be missing: Python's `None` versus a present value. */
  datatype Option<+T> = None | Some(value: T) {

    /** The wrapped value, or `default` when there is none (Python's `x or default` for optionals). */
    function GetOr(default: T): T
    {
      match this
      case Some(v) => v
      case None => default
    }
  }
}
